=== FILE: README.md ===
# AI services and client stores of a note-taking app, in Dafny

This project models the logic core of a small note-taking web app:

- **Error and retry utilities.** These cover the tagged `AIError`, credential validation and the failure classifier `handleApiError`. They also cover `withRetry`, a bounded retry with exponential backoff, and `withTimeout`.
- **The real provider.** This includes its request construction, truncation and fallbacks, the `lastError` bookkeeping, and how the timeout and retry wrappers compose around each call. It also includes `parseAnalysisResponse`, the line-oriented reader that turns a completion into a `NoteAnalysis`.
- **The simulated provider.**
- **The provider factory.**
- **The two client stores:** the notes and the assistant state.

Everything is a pure function over immutable datatypes:

- **Waiting** is recorded as a trace of backoff delays rather than performed.
- **The chat-completion client** is abstract. Its `a`-th invocation is a parameter that either completes, fails inside the client, or loses the race against the deadline.
- **`Math.random()` draws** are parameters in [0, 1).
- **Clock reads** (`Date.now()`, `new Date()`) are parameters.
- **A store action** is a transition from one state to the next. The `set` merge keeps every field the action does not name.

Modules:

| module | file | what |
|---|---|---|
| `Base` | base.dfy | `Option`, subsequences, what `filter` computes |
| `Text` | text.dfy | the JavaScript string operations used: `trim`, ASCII `toLowerCase`, `includes`, `startsWith`, `substring`, `split`, number rendering |
| `Errors` | errors.dfy | `AIError`, thrown values, `validateApiKey`, `handleApiError` |
| `Retry` | retry.dfy | `withRetry`, backoff schedule, `withTimeout` |
| `AITypes` | types.dfy | service shapes and constants |
| `AnalysisParser` | analysis_parser.dfy | `parseAnalysisResponse` |
| `OpenAIService` | openai_service.dfy | the real provider |
| `MockService` | mock_service.dfy | the simulated provider |
| `ServiceFactory` | factory.dfy | `createAIService` and dispatch over the `AIService` interface |
| `NoteStore` | note_store.dfy | `useNoteStore` |
| `AssistantStore` | assistant_store.dfy | `useAIAssistantStore` |

Behaviour worth knowing, as the code has it:

- **`handleApiError` always throws.** It is declared as returning `never` and it does throw on every path. The providers `return` its call, so what a failed operation raises is the classified error. Here it is a function that returns the error raised.
- **Exhausted timeouts do not surface as `timeout` errors.** The timeout error from `withTimeout` is an `AIError`, which has no `response` and no `code`. So when the retries run out, `handleApiError` turns it into a non-retryable `api` error "Unexpected error: Request timed out" (`OpenAIService.TimeoutsExhaustRetries`).
- **Only deadline expiries are retried** by the real provider (`OpenAIService.OnlyTimeoutsAreRetried`). Errors raised inside the client are not `AIError`s, so `withRetry` rethrows them at once.
- **A negative `maxRetries` in the configuration is truthy.** It is passed through to `withRetry`, which then throws `undefined` without invoking the client. The catch block's `(error as Error).message` then throws a `TypeError` of its own, so no `lastError` is recorded (`OpenAIService.NegativeRetryCountFailsUnrecorded`). This rests on the assumption, listed under "Left out", that the client's constructor accepts the negative count.
- **The tag parser does not strip the line's label.** "Tags: a, b" yields the tags "Tags a" and "b". The model keeps that.

## Model

| member | source | states |
|---|---|---|
| `Errors.AIErrorDefaults` | src/services/ai/utils.ts:3-13 | an `AIError` built without the flag is non-retryable and has no status code |
| `Errors.ValidateApiKey` | src/services/ai/utils.ts:55-63 | a key is accepted iff present and starting with `sk-`; a missing, empty or all-blank key gives "API key is required", any other rejected key (leading blanks included) "Invalid API key format"; both are non-retryable validation errors without status |
| `Errors.HandleApiError` | src/services/ai/utils.ts:65-87 | status 429 gives a retryable rate-limit error with status 429; a status of 500 or more a retryable "Server error"; 400–499 a non-retryable "API error: " with the upstream message or the error's own; status tests win over codes; below 400 `ECONNABORTED` is the retryable timeout error "Request timeout", `ENOTFOUND`/`ECONNREFUSED` the retryable network error "Network error", anything else a non-retryable "Unexpected error: "; the result is retryable exactly for the transient signals and is never a validation error |
| `Errors.ClassifiedErrorsBecomeUnexpected` | src/services/ai/utils.ts:78-86 | an `AIError` reaching the classifier always comes out as a non-retryable "Unexpected error: " plus its message |
| `Retry.RetryFrom` | src/services/ai/utils.ts:25-38 | the loop from a given attempt settles with the outcome of its last invocation, every earlier one having failed retryably; it stops before the limit only on a success or a non-retryable failure; the wait after attempt `a` is `initialDelay·2^(a-1)` |
| `Retry.BackoffDelay` | src/services/ai/utils.ts:35 | the first wait is the initial delay, and no wait is shorter than a non-negative initial delay |
| `Retry.BackoffDoubles` | src/services/ai/utils.ts:35 | each later wait is twice the one before |
| `Retry.WithRetry` | src/services/ai/utils.ts:18-41 | with fewer than one attempt allowed, nothing is invoked and `undefined` is thrown; otherwise between 1 and `maxRetries` invocations, outcome of the last, earlier failures all retryable, waits doubling from `initialDelay` |
| `Retry.RetrySucceedsAfterFailures` | src/services/ai/utils.ts:25-33 | `k` retryable failures then a success, with `k` below the limit, return the success unchanged after `k+1` invocations and `k` waits |
| `Retry.RetryExhausted` | src/services/ai/utils.ts:25-40 | all attempts failing retryably throw the last error after exactly `maxRetries` invocations, having waited `initialDelay·(2^(maxRetries-1)−1)` in all |
| `Retry.RetryStopsOnPermanentFailure` | src/services/ai/utils.ts:31-33 | a failure that is not a retryable `AIError` is rethrown at once, with no wait after it |
| `Retry.ScheduleTotal` | src/services/ai/utils.ts:35-36 | the first `n` backoff waits add up to `initialDelay·(2^n−1)` |
| `Retry.WithTimeout` | src/services/ai/utils.ts:43-53 | the operation's outcome when it settles first, else the retryable timeout error "Request timed out" |
| `Retry.DeadlineIsRetried` | src/services/ai/utils.ts:50 | the deadline error is a retryable failure of kind timeout |
| `Text.Trim` | src/services/ai/utils.ts:56 | `trim()` leaves no surrounding white space and is empty exactly for all-blank input |
| `Text.Lower` | src/services/ai/OpenAIService.ts:152 | `toLowerCase` keeps the length, maps each character by itself, and leaves no capital A-Z behind |
| `Text.Prefix` | src/services/ai/OpenAIService.ts:77 | `substring(0, n)` is the first `n` characters, or the whole string when shorter |
| `Text.TrimKeepsChars` | src/services/ai/utils.ts:56 | every character of the trimmed string is a character of the input |
| `Text.TrimOfTrimmed` | src/services/ai/utils.ts:56 | a string with no surrounding white space is its own trim |
| `Text.TrimIsInfix` | src/services/ai/utils.ts:56 | the trimmed string occurs in the input with only white space on either side |
| `Text.TrimIdempotent` | src/services/ai/OpenAIService.ts:173 | trimming twice is trimming once |
| `Text.ContainsAt` | src/services/ai/OpenAIService.ts:152 | `includes` holds exactly when the word occurs at some position |
| `Text.Split` | src/services/ai/OpenAIService.ts:150 | `split` on one character gives at least one piece, no piece holds the separator, and joining the pieces back gives the input |
| `Text.SplitJoin` | src/services/ai/OpenAIService.ts:162 | splitting a join of separator-free pieces gives back the pieces |
| `Text.JoinChars` | src/services/ai/OpenAIService.ts:162 | a character is in a join exactly when it is the separator between two pieces or in some piece |
| `Text.DecimalRoundTrip` | src/stores/useNoteStore.ts:17 | the decimal rendering of a count reads back as that count |
| `Text.NatToString` | src/stores/useNoteStore.ts:17-19 | a number is rendered as a non-empty run of digits with no leading zero, starting with `0` only for zero |
| `Base.FilterUnique` | src/services/ai/OpenAIService.ts:150-162 | `filter` is pinned down by its contract: two order-keeping selections of all the elements passing the test are equal |
| `AnalysisParser.DropBlank` | src/services/ai/OpenAIService.ts:150 | `filter(line => line.trim())` keeps exactly the non-blank pieces, all of them, in order |
| `AnalysisParser.ContentLines` | src/services/ai/OpenAIService.ts:150 | the lines kept are exactly the non-blank pieces between newlines, all of them, in order; a blank response has none |
| `AnalysisParser.ContentLinesExact` | src/services/ai/OpenAIService.ts:150 | any order-keeping selection of all the non-blank pieces is the parser's line list |
| `AnalysisParser.FirstMentioning` | src/services/ai/OpenAIService.ts:152 | `find` gives the index of the first line whose lower-cased text contains the word, or none when no line does |
| `AnalysisParser.SummaryLine` | src/services/ai/OpenAIService.ts:152-154 | the first line mentioning "summary", else the first line, else "Summary not available" |
| `AnalysisParser.DropLabelChars` | src/services/ai/OpenAIService.ts:173 | the `[\s:\-]*` run is removed: what remains is a suffix, everything removed is a label character, and the rest does not start with one |
| `AnalysisParser.StripSummaryLabel` | src/services/ai/OpenAIService.ts:173 | without a leading "summary" in any case the line is just trimmed; with one, it and the maximal run of white space, `:` and `-` after it are removed, then the rest is trimmed |
| `AnalysisParser.NumberedItemIsPattern` | src/services/ai/OpenAIService.ts:157 | the numbered-item test means: a non-empty run of leading digits followed by `.`, `-` or a backslash |
| `AnalysisParser.KeyPointLines` | src/services/ai/OpenAIService.ts:156-157 | exactly the numbered or "key point" lines, all of them, repeats included, in their order |
| `AnalysisParser.KeyPoints` | src/services/ai/OpenAIService.ts:156-174 | one to five entries: with key-point lines present, as many as there are up to five, taken from the front of the key-point lines; "No key points identified" when there are none |
| `AnalysisParser.KeyPointsExact` | src/services/ai/OpenAIService.ts:156-174 | given any order-keeping selection of all the key-point lines, the key points are its first five (all of it when shorter) |
| `AnalysisParser.KeepTagChars` | src/services/ai/OpenAIService.ts:162 | a character survives the replace iff it is a letter, a comma or white space |
| `AnalysisParser.KeepTagCharsIsFilter` | src/services/ai/OpenAIService.ts:162 | the replace keeps exactly the letters, commas and white space of the line, all of them, in order |
| `AnalysisParser.TrimmedNonEmpty` | src/services/ai/OpenAIService.ts:162 | the kept tags are non-empty and trimmed, and there are none exactly when every piece is blank |
| `AnalysisParser.TrimmedNonEmptyIsFilter` | src/services/ai/OpenAIService.ts:162 | `map(trim).filter(Boolean)` is exactly the non-empty trimmed pieces, all of them, in order |
| `AnalysisParser.TagsOf` | src/services/ai/OpenAIService.ts:162 | the tags of a tag line are exactly the non-empty trimmed comma pieces of the line with everything but letters, commas and white space removed, in order; each is letters and white space only, and there is at least one when the line has a letter |
| `AnalysisParser.TagsOfExact` | src/services/ai/OpenAIService.ts:162 | any order-keeping selection of all the non-empty trimmed pieces is the tag list |
| `AnalysisParser.Tags` | src/services/ai/OpenAIService.ts:160-163 | the tags come from the first line mentioning "tag", else `["general"]`; never empty |
| `AnalysisParser.SentimentOf` | src/services/ai/OpenAIService.ts:165-170 | the first line mentioning "sentiment" decides: negative iff it mentions "negative", positive iff it mentions "positive" but not "negative"; neutral with no such line |
| `AnalysisParser.ParseAnalysisResponse` | src/services/ai/OpenAIService.ts:148-178 | the summary is trimmed, there are one to five key points and at least one well-formed tag |
| `AnalysisParser.ParseBlankResponse` | src/services/ai/OpenAIService.ts:148-178 | a blank completion parses to summary "not available", `["No key points identified"]`, `["general"]`, neutral |
| `OpenAIService.EffectiveTimeout` | src/services/ai/OpenAIService.ts:58 | the configured timeout unless absent or zero, then 30000 |
| `OpenAIService.EffectiveMaxRetries` | src/services/ai/OpenAIService.ts:60 | the configured retry count unless absent or zero, then 3; a negative count is kept |
| `OpenAIService.Construct` | src/services/ai/OpenAIService.ts:11-27 | construction succeeds iff the key validates, with nothing recorded; otherwise exactly `validateApiKey`'s error is thrown |
| `OpenAIService.GetServiceStatus` | src/services/ai/OpenAIService.ts:141-146 | available iff no non-empty failure message is recorded; the recorded message is reported |
| `OpenAIService.ResponseMessages` | src/services/ai/OpenAIService.ts:30-47 | the fixed system message first, a "Context from user's notes: " system message iff the context is non-empty, the user prompt last |
| `OpenAIService.AnalysisRequest` | src/services/ai/OpenAIService.ts:71-95 | the analyst system message, then the prompt embedding only the first 2000 characters of the note |
| `OpenAIService.SummaryRequest` | src/services/ai/OpenAIService.ts:112-128 | the summarizer system message, then the prompt embedding only the first 3000 characters of the text |
| `OpenAIService.TruncatedInputsAgree` | src/services/ai/OpenAIService.ts:77-123 | inputs agreeing on their first 2000 (analysis) or 3000 (summary) characters send the same request |
| `OpenAIService.AttemptOutcome` | src/services/ai/OpenAIService.ts:51-59 | an attempt is a retryable failure exactly when it lost the race against the deadline, and never throws `undefined` |
| `OpenAIService.CallWithRetry` | src/services/ai/OpenAIService.ts:50-61 | the client is invoked between 1 and the effective retry count times (never, throwing `undefined`, when that count is below 1); every invocation but the last lost the race against the deadline, the run stops below that count only on an attempt that did not time out, and it settles with the last one's outcome |
| `OpenAIService.Settle` | src/services/ai/OpenAIService.ts:49-67 | on success the state is untouched; on failure the message is recorded and the classified error is thrown; with a negative retry count a `TypeError` is thrown and nothing is recorded |
| `OpenAIService.ContentOr` | src/services/ai/OpenAIService.ts:63 | a present, non-empty completion is used as is, anything else gives the fallback |
| `OpenAIService.GenerateResponse` | src/services/ai/OpenAIService.ts:29-68 | the request is the response messages; a reply is the completion when present and non-empty, else "No response generated", and leaves the state alone; a failure is the shared catch block's |
| `OpenAIService.AnalyzeNote` | src/services/ai/OpenAIService.ts:70-108 | the analysis request; on success the parse of the completion, or of the empty string when it is missing |
| `OpenAIService.SummarizeText` | src/services/ai/OpenAIService.ts:110-139 | the summary request; a summary is the completion when present and non-empty, else "Unable to generate summary" |
| `OpenAIService.OnlyTimeoutsAreRetried` | src/services/ai/OpenAIService.ts:50-61 | at most the configured number of invocations, and every invocation before the last one timed out |
| `OpenAIService.TimeoutsThenCompletion` | src/services/ai/OpenAIService.ts:50-63 | `k` timeouts then a completion, with `k` below the retry count, invoke the client `k + 1` times and settle with that completion, recording nothing |
| `OpenAIService.ClientFailureIsNotRetried` | src/services/ai/OpenAIService.ts:64-66 | for any request, a client failure on the first attempt ends the call after one invocation, records its message and throws its classification |
| `OpenAIService.TimeoutsExhaustRetries` | src/services/ai/OpenAIService.ts:50-66 | for any request, all attempts timing out: the configured number of invocations, "Request timed out" recorded, "Unexpected error: Request timed out" thrown, service no longer available |
| `OpenAIService.NegativeRetryCountFailsUnrecorded` | src/services/ai/OpenAIService.ts:60-65 | with a negative retry count the client is never invoked, a `TypeError` is thrown and nothing is recorded |
| `MockService.Construct` | src/services/ai/MockAIService.ts:8-10 | the configuration is ignored and no failure is recorded |
| `MockService.Pick` | src/services/ai/MockAIService.ts:30 | `floor(r·n)` is an index below `n` |
| `MockService.PickCoversAll` | src/services/ai/MockAIService.ts:30 | every index is picked by some draw |
| `MockService.EchoReply` | src/services/ai/MockAIService.ts:25 | the prompt quoted whole when at most 50 characters long, else its first 50 characters followed by "..." |
| `MockService.Replies` | src/services/ai/MockAIService.ts:21-28 | six non-empty canned replies, the fourth echoing the prompt |
| `MockService.OrGreeting` | src/services/ai/MockAIService.ts:30 | the fallback to `MOCK_RESPONSES.GREETING` never yields an empty reply and keeps a non-empty one |
| `MockService.GenerateResponse` | src/services/ai/MockAIService.ts:12-31 | it throws "Mock service error for testing" and records it iff the failure draw is below 0.1; otherwise it returns the canned reply at `floor(pickDraw·6)`, non-empty, with the state unchanged; a recorded failure is never cleared |
| `MockService.EveryReplyReachable` | src/services/ai/MockAIService.ts:15-30 | every canned reply, and the failure, is produced by some draws |
| `MockService.CeilDiv` | src/services/ai/MockAIService.ts:42 | `Math.ceil(n/d)` is the least `q` with `d·q ≥ n` |
| `MockService.CountSentence` | src/services/ai/MockAIService.ts:57 | the sentence is the header, a numeral without leading zeros that reads back as the count, and the trailer |
| `MockService.AnalyzeNote` | src/services/ai/MockAIService.ts:33-51 | the summary states `ceil(len/50)` key ideas, the key points are the three fixed ones, the tags the first `2 + floor(tagDraw·3)` of the six fixed ones, and the sentiment follows the draw's third |
| `MockService.SummarizeText` | src/services/ai/MockAIService.ts:53-58 | the fixed sentence stating `ceil(len/100)` main points |
| `MockService.GetServiceStatus` | src/services/ai/MockAIService.ts:60-65 | always available; an empty message reads as none |
| `MockService.FailureReportedButAvailable` | src/services/ai/MockAIService.ts:15-19 | after a simulated failure the status reports its message and stays available |
| `ServiceFactory.CreateAIService` | src/services/ai/index.ts:5-14 | "openai" builds the real provider iff the key validates and otherwise throws its validation error unchanged; "mock" always builds the simulated one; any other name throws "Unsupported AI provider: " plus the name |
| `ServiceFactory.FreshServiceAvailable` | src/services/ai/index.ts:5-14 | a freshly created service of either kind is available with no error |
| `ServiceFactory.GenerateResponse` | src/services/ai/types.ts:2 | the call reaches the provider the service holds: result and updated service are that provider's; a reply is non-empty and leaves the service unchanged |
| `ServiceFactory.AnalyzeNote` | src/services/ai/types.ts:3 | the call reaches the provider the service holds: result and updated service are that provider's; an analysis has one to five key points and at least one tag; the simulated provider never fails |
| `ServiceFactory.SummarizeText` | src/services/ai/types.ts:4 | the call reaches the provider the service holds: result and updated service are that provider's; a summary is non-empty; the simulated provider never fails |
| `ServiceFactory.GetServiceStatus` | src/services/ai/types.ts:5 | the status is the held provider's own: the simulated provider is always available, the real one iff no failure message is recorded |
| `ServiceFactory.FailedReplyIsReported` | src/services/ai/OpenAIService.ts:64-66 | after a failed reply the status reports it: the simulated provider stays available with its fixed message; the real one records the message of the error its retry run threw and is unavailable unless that message is empty |
| `ServiceFactory.MockConfigCreatesMock` | src/services/ai/index.ts:5-14 | a bare `{provider: 'mock'}` configuration creates a simulated service with nothing recorded |
| `ServiceFactory.MockSmokeScenario` | src/services/ai/test.ts:5-33 | a service created from `{provider: 'mock'}` answers any prompt, the test's greeting included, with a non-empty reply (unless the failure draw hits), stays available, and analyses a note into the three fixed key points |
| `ServiceFactory.MockIgnoresContext` | src/services/ai/MockAIService.ts:12 | the simulated provider's reply does not depend on the context |
| `NoteStore.DefaultTitle` | src/stores/useNoteStore.ts:19 | "Note " followed by a numeral without leading zeros reading the prior count plus one |
| `NoteStore.AddNote` | src/stores/useNoteStore.ts:15-29 | one new note in front with the given content, no tags, an id from the clock, and the given title unless absent or empty; the earlier notes follow unchanged; it becomes current; the settings stay |
| `NoteStore.UpdateNote` | src/stores/useNoteStore.ts:31-39 | notes with the id get the new content and the time read while mapping their own position, and keep id, creation time, tags and title; the rest, the order and the length are unchanged |
| `NoteStore.UpdateIdempotent` | src/stores/useNoteStore.ts:31-39 | updating twice with the same clock readings is updating once; updating an absent id changes nothing |
| `NoteStore.Without` | src/stores/useNoteStore.ts:43 | the result is `filter` of the notes by `id !== id`: an order-preserving selection of exactly the notes with another id, all of them kept; nothing changes when no note has the id |
| `NoteStore.DeleteNote` | src/stores/useNoteStore.ts:41-46 | the notes are filtered by `id !== id`, keeping every other note in order; the current note is cleared iff it was that id |
| `NoteStore.AddThenDelete` | src/stores/useNoteStore.ts:15-46 | deleting a just-added note under a fresh id restores the earlier notes and clears the current note |
| `NoteStore.SetCurrentNote` | src/stores/useNoteStore.ts:48-50 | only the current note changes |
| `NoteStore.SetSearchQuery` | src/stores/useNoteStore.ts:52-54 | only the search query changes |
| `NoteStore.SetFilterTags` | src/stores/useNoteStore.ts:56-58 | only the tag filter changes |
| `NoteStore.SetViewMode` | src/stores/useNoteStore.ts:60-62 | only the view mode changes |
| `NoteStore.ToggleSidebar` | src/stores/useNoteStore.ts:64-66 | only the sidebar flag changes, to its negation |
| `NoteStore.TogglesAndSettersCompose` | src/stores/useNoteStore.ts:48-66 | toggling twice restores the state; a second set of a field overrides the first |
| `NoteStore.Partialize` | src/stores/useNoteStore.ts:71-76 | the persisted part is the notes, the current note, the view mode and the sidebar flag |
| `NoteStore.PartializeKeepsExactly` | src/stores/useNoteStore.ts:71-76 | two states persist alike iff they agree on those four fields; the search query and the tag filter never reach storage |
| `AssistantStore.InitialIsIdle` | src/stores/useAIAssistantStore.ts:8-12 | a new store is inactive, not loading, with an empty response, no error and no history |
| `AssistantStore.Activate` | src/stores/useAIAssistantStore.ts:14-16 | active with the error cleared; everything else kept |
| `AssistantStore.Deactivate` | src/stores/useAIAssistantStore.ts:18-20 | inactive; the error, history and the rest kept |
| `AssistantStore.SetResponse` | src/stores/useAIAssistantStore.ts:22-24 | only the current response changes |
| `AssistantStore.SetLoading` | src/stores/useAIAssistantStore.ts:26-28 | only the loading flag changes |
| `AssistantStore.SetError` | src/stores/useAIAssistantStore.ts:30-32 | only the error changes |
| `AssistantStore.AddToHistory` | src/stores/useAIAssistantStore.ts:34-44 | exactly one entry with the given role, content and time appended; earlier entries and the other fields kept |
| `AssistantStore.ClearHistory` | src/stores/useAIAssistantStore.ts:46-48 | the history is emptied and nothing else changes |
| `AssistantStore.Partialize` | src/stores/useAIAssistantStore.ts:53-55 | only the conversation history is persisted |
| `AssistantStore.HistoryAppendOnly` | src/stores/useAIAssistantStore.ts:34-48 | without a `clearHistory`, any run of actions leaves the persisted history as the starting history followed by the appended entries in order |
| `AssistantStore.OnlyHistoryActionsPersist` | src/stores/useAIAssistantStore.ts:53-55 | every action other than `addToHistory` and `clearHistory` leaves the persisted part unchanged |
| `AssistantStore.ActivationClearsError` | src/stores/useAIAssistantStore.ts:14-20 | activation is idempotent and clears whatever error was set, also after a later deactivation |

## Left out

- The chat-completion client and its HTTP call (src/services/ai/OpenAIService.ts:17-22, 52-57) belong to a foreign library. Each invocation is an abstract attempt result. The client's constructor is taken to succeed once the key has validated. Its own internal retries and timeout, configured from the same values, are not modelled.
- Real time: `delay`, `setTimeout`, and the `Promise.race` in `withTimeout` (src/services/ai/utils.ts:15-16, 47-52). Waits are recorded, not slept. Which side of the race settles first is a parameter. An operation still in flight after losing the race is not modelled.
- The simulated provider's delay draws (src/services/ai/MockAIService.ts:13, 34, 54) only size a sleep and are left out with it.
- `Math.random()`, `Date.now()` and `new Date()` are parameters. Nothing is claimed about the uniqueness of note ids made from the clock.
- Persistence I/O: the `persist` middleware, `localStorage`, JSON serialisation (which turns dates into strings) and src/stores/persistence.ts. Only the `partialize` projections are modelled.
- React components, src/App.tsx and the lint configuration are user interface and tooling. src/services/ai/test.ts appears only as the scenario `ServiceFactory.MockSmokeScenario`.
- Unused declarations: the `rateLimit` status field, `RATE_LIMIT_HEADERS`, `ERROR_CODES`, `OPENAI_ENDPOINTS`, `MOCK_RESPONSES.ERROR` and `ConversationMessage`.
- Unicode: `toLowerCase` and the regular-expression classes are modelled for ASCII letters only. `trim` and `\s` use the ECMAScript white-space and line-terminator set.
- Text outside the Basic Multilingual Plane: a Dafny `char` is a Unicode scalar value and cannot hold a lone surrogate, so only text whose characters are each one UTF-16 code unit is modelled. For other text, JavaScript's `.length`, `substring(0, 50/2000/3000)` and `Math.ceil(length / 50)` count code units and would differ from the model.
- Number semantics: timeouts and retry counts are integers. NaN, fractional counts and floating-point rounding in `Math.pow` and `Math.ceil` are not modelled. Draws are exact reals.
- Values of the wrong runtime type: a non-string provider, key, prompt or content, and the `typeof apiKey !== 'string'` test, are excluded by the types.
- `Errors.HandleApiError` reads a thrown value only through its message, response status, upstream message and code. Other shapes of `error.response` are not modelled.
- `AnalysisParser.ParseAnalysisResponse`'s own contract states only the shape of the analysis. How each field is chosen is stated on `ContentLines`, `SummaryLine`, `StripSummaryLabel`, `KeyPoints`, `Tags`/`TagsOf` and `SentimentOf`.
- `withRetry` writes its backoff base 2 and default delay 1000 as literals. `DEFAULT_BACKOFF_FACTOR` and `INITIAL_RETRY_DELAY` in src/services/ai/constants.ts carry the same values and are referenced by nothing, so the model keeps one copy, in `Retry`.
- `OpenAIService.EffectiveTimeout` is not tied to the deadline: whether an attempt loses the race is a parameter of each attempt, so the length of the timeout it computes has no effect in the model.
- `OpenAIService.GetServiceStatus` does not carry the `!!this.client` conjunct. Every instance a caller can hold has a client, because construction either builds one or throws.

=== FILE: analysis_parser.dfy ===
/** `parseAnalysisResponse` of the OpenAI provider
    (src/services/ai/OpenAIService.ts): the line-oriented reading of a free
    text completion into a `NoteAnalysis`. Case-insensitive tests use ASCII
    lower-casing. */
module AnalysisParser {
  import opened Base
  import opened Text
  import opened AITypes

  const SummaryFallback := "Summary not available"
  const NoKeyPoints := "No key points identified"
  const DefaultTags := ["general"]
  const MaxKeyPoints := 5
  const SummaryLabel := "summary"

  /** `line.toLowerCase().includes(word)`. */
  predicate Mentions(line: string, word: string) {
    Contains(Lower(line), word)
  }

  /** `i` is the index of the first line mentioning `word`. */
  predicate IsFirstMentioning(lines: seq<string>, word: string, i: int) {
    && 0 <= i < |lines|
    && Mentions(lines[i], word)
    && forall j :: 0 <= j < i ==> !Mentions(lines[j], word)
  }

  predicate NoneMentions(lines: seq<string>, word: string) {
    forall j :: 0 <= j < |lines| ==> !Mentions(lines[j], word)
  }

  /** Every piece is blank. */
  predicate AllBlank(pieces: seq<string>) {
    forall i :: 0 <= i < |pieces| ==> IsBlank(pieces[i])
  }

  lemma AllBlankTail(pieces: seq<string>)
    requires |pieces| > 0
    ensures AllBlank(pieces) <==> IsBlank(pieces[0]) && AllBlank(pieces[1..])
  {
    assert forall i :: 0 <= i < |pieces| - 1 ==> pieces[1..][i] == pieces[i + 1];
  }

  predicate NotBlank(s: string) {
    !IsBlank(s)
  }

  predicate NonEmpty(s: string) {
    s != []
  }

  /** The pieces that are not blank, in order (`filter(line => line.trim())`:
      by `Trim`'s contract a trimmed line is falsy exactly when blank). */
  function DropBlank(pieces: seq<string>): (r: seq<string>)
    ensures IsFilterOf(r, pieces, NotBlank)
    ensures forall x :: x in r <==> x in pieces && !IsBlank(x)
    ensures AllBlank(pieces) ==> r == []
    decreases |pieces|
  {
    if |pieces| == 0 then []
    else
      var rest := DropBlank(pieces[1..]);
      assert pieces == [pieces[0]] + pieces[1..];
      AllBlankTail(pieces);
      if IsBlank(pieces[0]) then
        assert rest != [] ==> rest[0] != pieces[0];
        rest
      else
        assert ([pieces[0]] + rest)[1..] == rest;
        [pieces[0]] + rest
  }

  /** The response's non-blank lines, in order. */
  function ContentLines(response: string): (lines: seq<string>)
    ensures forall i :: 0 <= i < |lines| ==> !IsBlank(lines[i]) && '\n' !in lines[i]
    ensures IsFilterOf(lines, Split(response, '\n'), NotBlank)
    ensures forall x :: x in lines <==> x in Split(response, '\n') && !IsBlank(x)
    ensures IsBlank(response) ==> lines == []
  {
    var pieces := Split(response, '\n');
    if IsBlank(response) then SplitBlank(response, '\n'); DropBlank(pieces) else DropBlank(pieces)
  }

  /** The index of the first line mentioning `word`, if any
      (`lines.find(...)`). */
  function FirstMentioning(lines: seq<string>, word: string): (r: Option<nat>)
    ensures r.Some? ==> IsFirstMentioning(lines, word, r.value)
    ensures r.None? ==> NoneMentions(lines, word)
    decreases |lines|
  {
    if |lines| == 0 then None
    else if Mentions(lines[0], word) then Some(0)
    else match FirstMentioning(lines[1..], word)
      case None => None
      case Some(j) => Some(j + 1)
  }

  /** The line the summary is taken from: the first line mentioning
      "summary", else the first line, else the fixed fallback. */
  function SummaryLine(lines: seq<string>): (s: string)
    ensures forall i :: IsFirstMentioning(lines, SummaryLabel, i) ==> s == lines[i]
    ensures NoneMentions(lines, SummaryLabel) && |lines| > 0 ==> s == lines[0]
    ensures lines == [] ==> s == SummaryFallback
  {
    match FirstMentioning(lines, SummaryLabel)
    case Some(i) => lines[i]
    case None => if |lines| > 0 then lines[0] else SummaryFallback
  }

  /** Characters of the label run `[\s:\-]`. */
  predicate IsLabelChar(c: char) {
    IsWhitespace(c) || c == ':' || c == '-'
  }

  /** The longest prefix of label characters removed. */
  function DropLabelChars(s: string): (r: string)
    ensures |r| <= |s| && r == s[|s| - |r|..]
    ensures forall i :: 0 <= i < |s| - |r| ==> IsLabelChar(s[i])
    ensures r == [] || !IsLabelChar(r[0])
    decreases |s|
  {
    if |s| > 0 && IsLabelChar(s[0]) then DropLabelChars(s[1..]) else s
  }

  /** `summary.replace(/^summary[\s:\-]*` + `/i, '').trim()`: a leading
      "summary" in any case, with the run of white space, colons and hyphens
      after it, is removed, then the rest is trimmed. */
  function StripSummaryLabel(s: string): (r: string)
    ensures IsTrimmed(r)
    ensures !StartsWith(Lower(s), SummaryLabel) ==> r == Trim(s)
    ensures StartsWith(Lower(s), SummaryLabel) ==>
      exists j :: |SummaryLabel| <= j <= |s| && LabelRun(s, j) && r == Trim(s[j..])
  {
    if StartsWith(Lower(s), SummaryLabel) then
      var rest := DropLabelChars(s[|SummaryLabel|..]);
      LabelRunDropped(s);
      Trim(rest)
    else
      Trim(s)
  }

  lemma LabelRunDropped(s: string)
    requires |SummaryLabel| <= |s|
    ensures var j := |s| - |DropLabelChars(s[|SummaryLabel|..])|;
      |SummaryLabel| <= j <= |s| && LabelRun(s, j) && s[j..] == DropLabelChars(s[|SummaryLabel|..])
  {
    var rest := DropLabelChars(s[|SummaryLabel|..]);
    var j := |s| - |rest|;
    forall i | |SummaryLabel| <= i < j ensures IsLabelChar(s[i]) {
      assert s[i] == s[|SummaryLabel|..][i - |SummaryLabel|];
    }
    assert s[j..] == rest;
  }

  /** `s[7..j]` is a maximal run of label characters. */
  predicate LabelRun(s: string, j: int)
    requires |SummaryLabel| <= j <= |s|
  {
    && (forall i :: |SummaryLabel| <= i < j ==> IsLabelChar(s[i]))
    && (j == |s| || !IsLabelChar(s[j]))
  }

  /** The length of the run of ASCII digits `s` starts with. */
  function LeadingDigits(s: string): (k: nat)
    ensures k <= |s| && AllDigits(s[..k])
    ensures k == |s| || !IsDigit(s[k])
    decreases |s|
  {
    if |s| > 0 && IsDigit(s[0]) then
      var k := 1 + LeadingDigits(s[1..]);
      assert forall i :: 1 <= i < k ==> s[..k][i] == s[1..][..k - 1][i - 1];
      k
    else 0
  }

  predicate IsListPunct(c: char) {
    c == '.' || c == '-' || c == '\\'
  }

  /** The line matches `/^\d+[\\.\-]/`. */
  predicate NumberedItem(line: string) {
    var k := LeadingDigits(line);
    1 <= k < |line| && IsListPunct(line[k])
  }

  /** `NumberedItem` is the regular expression's meaning: some non-empty run
      of digits at the start is followed by `.`, `-` or a backslash. */
  lemma NumberedItemIsPattern(line: string)
    ensures NumberedItem(line) <==>
      exists k :: 1 <= k < |line| && AllDigits(line[..k]) && IsListPunct(line[k])
  {
    var n := LeadingDigits(line);
    if k :| 1 <= k < |line| && AllDigits(line[..k]) && IsListPunct(line[k]) {
      if n < k {
        assert line[..k][n] == line[n];
      } else if n > k {
        assert line[..n][k] == line[k];
      }
    }
  }

  /** A line kept as a key point. */
  predicate IsKeyPointLine(line: string) {
    NumberedItem(line) || Mentions(line, "key point")
  }

  /** The key-point lines, in their original order. */
  function KeyPointLines(lines: seq<string>): (r: seq<string>)
    ensures IsFilterOf(r, lines, IsKeyPointLine)
    ensures forall x :: x in r <==> x in lines && IsKeyPointLine(x)
    ensures (forall i :: 0 <= i < |lines| ==> IsKeyPointLine(lines[i])) ==> r == lines
    decreases |lines|
  {
    if |lines| == 0 then []
    else
      var rest := KeyPointLines(lines[1..]);
      assert lines == [lines[0]] + lines[1..];
      if IsKeyPointLine(lines[0]) then
        assert ([lines[0]] + rest)[1..] == rest;
        [lines[0]] + rest
      else
        assert rest != [] ==> rest[0] != lines[0];
        rest
  }

  /** `keyPoints.slice(0, 5)`, or the placeholder when there are none. */
  function KeyPoints(lines: seq<string>): (r: seq<string>)
    ensures 1 <= |r| <= MaxKeyPoints
    ensures (forall i :: 0 <= i < |lines| ==> !IsKeyPointLine(lines[i])) ==> r == [NoKeyPoints]
    ensures (exists i :: 0 <= i < |lines| && IsKeyPointLine(lines[i])) ==>
      && (forall x :: x in r ==> x in lines && IsKeyPointLine(x))
      && StartsWith(KeyPointLines(lines), r)
      && (|KeyPointLines(lines)| <= MaxKeyPoints ==> r == KeyPointLines(lines))
    ensures CountIf(lines, IsKeyPointLine) > 0 ==>
      |r| == Min(MaxKeyPoints, CountIf(lines, IsKeyPointLine)) && StartsWith(KeyPointLines(lines), r)
  {
    var found := KeyPointLines(lines);
    KeyPointLinesFound(lines);
    if |found| > 0 then found[..Min(MaxKeyPoints, |found|)] else [NoKeyPoints]
  }

  lemma KeyPointLinesFound(lines: seq<string>)
    ensures |KeyPointLines(lines)| > 0 <==> exists i :: 0 <= i < |lines| && IsKeyPointLine(lines[i])
    ensures forall m, x :: 0 <= m <= |KeyPointLines(lines)| && x in KeyPointLines(lines)[..m] ==> x in lines && IsKeyPointLine(x)
  {
    var found := KeyPointLines(lines);
    if i :| 0 <= i < |lines| && IsKeyPointLine(lines[i]) {
      assert lines[i] in found;
    }
    if |found| > 0 {
      assert found[0] in lines;
    }
    forall m, x | 0 <= m <= |found| && x in found[..m] ensures x in lines && IsKeyPointLine(x) {
      assert x in found;
    }
  }

  /** A tag's text: letters and white space only. */
  predicate TagText(s: string) {
    forall i :: 0 <= i < |s| ==> IsAsciiLetter(s[i]) || IsWhitespace(s[i])
  }

  predicate IsTagChar(c: char) {
    IsAsciiLetter(c) || c == ',' || IsWhitespace(c)
  }

  /** `line.replace(/[^a-zA-Z,\s]/g, '')`: only letters, commas and white
      space survive, in order. */
  function KeepTagChars(line: string): (r: string)
    ensures forall c :: c in r <==> c in line && IsTagChar(c)
    decreases |line|
  {
    if |line| == 0 then []
    else (if IsTagChar(line[0]) then [line[0]] else []) + KeepTagChars(line[1..])
  }

  /** `KeepTagChars` is exactly the letters, commas and white space of the
      line, all of them, in order. */
  lemma {:induction false} KeepTagCharsIsFilter(line: string)
    ensures IsFilterOf(KeepTagChars(line), line, IsTagChar)
    decreases |line|
  {
    if |line| > 0 {
      var rest := KeepTagChars(line[1..]);
      KeepTagCharsIsFilter(line[1..]);
      FilterCons(line[0], line[1..], rest, IsTagChar);
      assert line == [line[0]] + line[1..];
      assert KeepTagChars(line) == if IsTagChar(line[0]) then [line[0]] + rest else rest;
    }
  }

  /** `.map(tag => tag.trim())`. */
  function TrimAll(pieces: seq<string>): (r: seq<string>)
    ensures |r| == |pieces| && forall i :: 0 <= i < |r| ==> r[i] == Trim(pieces[i])
  {
    seq(|pieces|, i requires 0 <= i < |pieces| => Trim(pieces[i]))
  }

  /** `.map(tag => tag.trim()).filter(Boolean)`. */
  function TrimmedNonEmpty(pieces: seq<string>): (r: seq<string>)
    ensures forall i :: 0 <= i < |r| ==> r[i] != [] && IsTrimmed(r[i])
    ensures r == [] <==> AllBlank(pieces)
    decreases |pieces|
  {
    if |pieces| == 0 then []
    else
      var t := Trim(pieces[0]);
      var rest := TrimmedNonEmpty(pieces[1..]);
      AllBlankTail(pieces);
      if t == [] then rest else [t] + rest
  }

  lemma TrimAllCons(pieces: seq<string>)
    requires |pieces| > 0
    ensures TrimAll(pieces) == [Trim(pieces[0])] + TrimAll(pieces[1..])
  {
    var a := TrimAll(pieces);
    var b := [Trim(pieces[0])] + TrimAll(pieces[1..]);
    assert |a| == |b|;
    forall i | 0 <= i < |a| ensures a[i] == b[i] {
      if i > 0 {
        assert pieces[1..][i - 1] == pieces[i];
      }
    }
  }

  /** `TrimmedNonEmpty` is exactly the non-empty trimmed pieces, in order. */
  lemma {:induction false} TrimmedNonEmptyIsFilter(pieces: seq<string>)
    ensures IsFilterOf(TrimmedNonEmpty(pieces), TrimAll(pieces), NonEmpty)
    decreases |pieces|
  {
    if |pieces| > 0 {
      var t := Trim(pieces[0]);
      var rest := TrimmedNonEmpty(pieces[1..]);
      TrimmedNonEmptyIsFilter(pieces[1..]);
      TrimAllCons(pieces);
      FilterCons(t, TrimAll(pieces[1..]), rest, NonEmpty);
      assert TrimmedNonEmpty(pieces) == if t == [] then rest else [t] + rest;
    }
  }

  /** Trimming and dropping empties keeps tag text tag text. */
  lemma {:induction false} TrimmedNonEmptyTagText(pieces: seq<string>)
    requires forall i :: 0 <= i < |pieces| ==> TagText(pieces[i])
    ensures forall i :: 0 <= i < |TrimmedNonEmpty(pieces)| ==> TagText(TrimmedNonEmpty(pieces)[i])
    decreases |pieces|
  {
    if |pieces| > 0 {
      var t := Trim(pieces[0]);
      var rest := TrimmedNonEmpty(pieces[1..]);
      forall i | 0 <= i < |pieces| - 1 ensures TagText(pieces[1..][i]) {
        assert pieces[1..][i] == pieces[i + 1];
      }
      TrimmedNonEmptyTagText(pieces[1..]);
      TrimKeepsTagText(pieces[0]);
      var r := TrimmedNonEmpty(pieces);
      assert r == if t == [] then rest else [t] + rest;
      forall i | 0 <= i < |r| ensures TagText(r[i]) {
        if t == [] {
          assert r[i] == rest[i];
        } else if i == 0 {
          assert r[i] == t;
        } else {
          assert r[i] == rest[i - 1];
        }
      }
    }
  }

  lemma TrimKeepsTagText(s: string)
    ensures TagText(s) ==> TagText(Trim(s))
  {
    var t := Trim(s);
    if TagText(s) {
      TrimKeepsChars(s);
      forall i | 0 <= i < |t| ensures IsAsciiLetter(t[i]) || IsWhitespace(t[i]) {
        var k :| 0 <= k < |s| && s[k] == t[i];
      }
    }
  }

  /** The tags one tag line yields. */
  function TagsOf(line: string): (tags: seq<string>)
    ensures forall i :: 0 <= i < |tags| ==> tags[i] != [] && IsTrimmed(tags[i]) && TagText(tags[i])
    ensures (exists i :: 0 <= i < |line| && IsAsciiLetter(line[i])) ==> |tags| >= 1
    ensures IsFilterOf(tags, TrimAll(Split(KeepTagChars(line), ',')), NonEmpty)
  {
    TrimmedNonEmptyIsFilter(Split(KeepTagChars(line), ','));
    TagPiecesFacts(line);
    TrimmedNonEmptyTagText(Split(KeepTagChars(line), ','));
    TrimmedNonEmpty(Split(KeepTagChars(line), ','))
  }

  lemma TagPiecesFacts(line: string)
    ensures var pieces := Split(KeepTagChars(line), ',');
      && (forall i :: 0 <= i < |pieces| ==> TagText(pieces[i]))
      && ((exists i :: 0 <= i < |line| && IsAsciiLetter(line[i])) ==> exists p :: 0 <= p < |pieces| && !IsBlank(pieces[p]))
  {
    var kept := KeepTagChars(line);
    var pieces := Split(kept, ',');
    forall i | 0 <= i < |pieces| ensures TagText(pieces[i]) {
      forall k | 0 <= k < |pieces[i]| ensures IsAsciiLetter(pieces[i][k]) || IsWhitespace(pieces[i][k]) {
        var c := pieces[i][k];
        JoinChars(pieces, ',', c);
        assert c in kept;
      }
    }
    if i :| 0 <= i < |line| && IsAsciiLetter(line[i]) {
      var c := line[i];
      assert c in line && IsTagChar(c);
      JoinChars(pieces, ',', c);
      var p :| 0 <= p < |pieces| && c in pieces[p];
      var k :| 0 <= k < |pieces[p]| && pieces[p][k] == c;
      assert !IsBlank(pieces[p]);
      assert 0 <= p < |Split(KeepTagChars(line), ',')| && !IsBlank(Split(KeepTagChars(line), ',')[p]);
    }
  }

  /** The filters above are pinned down by their contracts: an
      order-keeping selection of all the non-blank lines is `ContentLines`,
      one of all the non-empty trimmed comma pieces of the filtered line is
      `TagsOf`, and the key points are the first five of all the key-point
      lines. */
  lemma ContentLinesExact(response: string, lines: seq<string>)
    requires IsFilterOf(lines, Split(response, '\n'), NotBlank)
    ensures lines == ContentLines(response)
  {
    FilterUnique(lines, ContentLines(response), Split(response, '\n'), NotBlank);
  }

  lemma TagsOfExact(line: string, tags: seq<string>)
    requires IsFilterOf(tags, TrimAll(Split(KeepTagChars(line), ',')), NonEmpty)
    ensures tags == TagsOf(line)
  {
    FilterUnique(tags, TagsOf(line), TrimAll(Split(KeepTagChars(line), ',')), NonEmpty);
  }

  lemma KeyPointsExact(lines: seq<string>, found: seq<string>)
    requires IsFilterOf(found, lines, IsKeyPointLine) && |found| > 0
    ensures KeyPoints(lines) == found[..Min(MaxKeyPoints, |found|)]
  {
    FilterUnique(found, KeyPointLines(lines), lines, IsKeyPointLine);
  }

  /** The suggested tags: from the first line mentioning "tag", else
      `["general"]`. */
  function Tags(lines: seq<string>): (tags: seq<string>)
    ensures |tags| >= 1
    ensures forall i :: 0 <= i < |tags| ==> tags[i] != [] && IsTrimmed(tags[i]) && TagText(tags[i])
    ensures NoneMentions(lines, "tag") ==> tags == DefaultTags
    ensures forall i :: IsFirstMentioning(lines, "tag", i) ==> tags == TagsOf(lines[i])
  {
    match FirstMentioning(lines, "tag")
    case None =>
      assert TagText(DefaultTags[0]);
      DefaultTags
    case Some(i) =>
      MentionImpliesLetter(lines[i], "tag");
      TagsOf(lines[i])
  }

  /** A line mentioning a non-empty word of ASCII letters contains an ASCII
      letter. */
  lemma MentionImpliesLetter(line: string, word: string)
    requires |word| > 0 && 'a' <= word[0] <= 'z'
    requires Mentions(line, word)
    ensures exists i :: 0 <= i < |line| && IsAsciiLetter(line[i])
  {
    ContainsAt(Lower(line), word);
    var k :| OccursAt(Lower(line), word, k);
    assert Lower(line)[k..k + |word|][0] == word[0];
    assert IsAsciiLetter(line[k]);
  }

  /** The sentiment: read from the first line mentioning "sentiment";
      "negative" there wins over "positive"; neutral otherwise. */
  function SentimentOf(lines: seq<string>): (s: Sentiment)
    ensures NoneMentions(lines, "sentiment") ==> s == Neutral
    ensures forall i :: IsFirstMentioning(lines, "sentiment", i) ==>
      && (s == Negative <==> Mentions(lines[i], "negative"))
      && (s == Positive <==> !Mentions(lines[i], "negative") && Mentions(lines[i], "positive"))
  {
    match FirstMentioning(lines, "sentiment")
    case None => Neutral
    case Some(i) =>
      var positive := Mentions(lines[i], "positive");
      var negative := Mentions(lines[i], "negative");
      if negative then Negative else if positive then Positive else Neutral
  }

  /** `parseAnalysisResponse`. */
  function ParseAnalysisResponse(response: string): (a: NoteAnalysis)
    ensures IsTrimmed(a.summary)
    ensures 1 <= |a.keyPoints| <= MaxKeyPoints
    ensures |a.suggestedTags| >= 1
    ensures forall i :: 0 <= i < |a.suggestedTags| ==>
      a.suggestedTags[i] != [] && IsTrimmed(a.suggestedTags[i]) && TagText(a.suggestedTags[i])
  {
    var lines := ContentLines(response);
    NoteAnalysis(
      StripSummaryLabel(SummaryLine(lines)),
      KeyPoints(lines),
      Tags(lines),
      SentimentOf(lines))
  }

  /** An empty or all-blank completion parses to the fallbacks, the summary
      losing its own "Summary " to the label stripper. */
  lemma ParseBlankResponse(response: string)
    requires IsBlank(response)
    ensures ParseAnalysisResponse(response) ==
      NoteAnalysis("not available", [NoKeyPoints], DefaultTags, Neutral)
  {
    assert ContentLines(response) == [];
    StrippedFallback();
  }

  lemma StrippedFallback()
    ensures StripSummaryLabel(SummaryFallback) == "not available"
  {
    FallbackIsLabelled();
    FallbackLabelRun();
    NotAvailableTrimmed();
  }

  lemma FallbackIsLabelled()
    ensures StartsWith(Lower(SummaryFallback), SummaryLabel)
  {
    var l := Lower(SummaryFallback);
    assert l[0] == LowerChar('S') == 's';
    assert l[1] == 'u' && l[2] == 'm' && l[3] == 'm' && l[4] == 'a' && l[5] == 'r' && l[6] == 'y';
    assert l[..7] == SummaryLabel;
  }

  lemma FallbackLabelRun()
    ensures DropLabelChars(SummaryFallback[|SummaryLabel|..]) == "not available"
  {
    var a := " not available";
    var b := "not available";
    assert SummaryFallback[7..] == a;
    assert IsLabelChar(a[0]) && a[1..] == b;
    assert !IsLabelChar(b[0]);
  }

  lemma NotAvailableTrimmed()
    ensures Trim("not available") == "not available"
  {
    var b := "not available";
    assert !IsWhitespace(b[0]) && !IsWhitespace(b[|b| - 1]);
    TrimOfTrimmed(b);
  }
}

=== FILE: assistant_store.dfy ===
/** The assistant store (src/stores/useAIAssistantStore.ts, shapes from
    src/stores/types.ts). Every action is a pure transition; `set` merges
    the fields it names and keeps the others. Clock reads are parameters. */
module AssistantStore {
  import opened Base

  /** Who spoke a history entry. */
  datatype Speaker = UserSpeaker | AssistantSpeaker

  datatype Entry = Entry(role: Speaker, content: string, timestamp: int)

  datatype State = State(
    isActive: bool,
    currentResponse: string,
    isLoading: bool,
    error: Option<string>,
    history: seq<Entry>)

  /** The state a new store starts in. */
  const Initial := State(false, "", false, None, [])

  /** A fresh store is inactive, idle, error-free and has no history. */
  lemma InitialIsIdle()
    ensures !Initial.isActive && !Initial.isLoading
    ensures Initial.currentResponse == "" && Initial.error.None? && Initial.history == []
  {
  }

  /** `activateAssistant()`: active, with any error cleared. */
  function Activate(s: State): (t: State)
    ensures t.isActive && t.error.None?
    ensures t.currentResponse == s.currentResponse && t.isLoading == s.isLoading && t.history == s.history
  {
    s.(isActive := true, error := None)
  }

  /** `deactivateAssistant()`: inactive; the error and history stay. */
  function Deactivate(s: State): (t: State)
    ensures !t.isActive
    ensures t.error == s.error && t.history == s.history
    ensures t.currentResponse == s.currentResponse && t.isLoading == s.isLoading
  {
    s.(isActive := false)
  }

  /** `setResponse(response)`. */
  function SetResponse(s: State, response: string): (t: State)
    ensures t.currentResponse == response
    ensures t.isActive == s.isActive && t.isLoading == s.isLoading && t.error == s.error && t.history == s.history
  {
    s.(currentResponse := response)
  }

  /** `setLoading(loading)`. */
  function SetLoading(s: State, loading: bool): (t: State)
    ensures t.isLoading == loading
    ensures t.isActive == s.isActive && t.currentResponse == s.currentResponse && t.error == s.error && t.history == s.history
  {
    s.(isLoading := loading)
  }

  /** `setError(error)`. */
  function SetError(s: State, error: Option<string>): (t: State)
    ensures t.error == error
    ensures t.isActive == s.isActive && t.currentResponse == s.currentResponse && t.isLoading == s.isLoading && t.history == s.history
  {
    s.(error := error)
  }

  /** `addToHistory(role, content)` at time `now`: one entry appended, the
      earlier ones kept as they were. */
  function AddToHistory(s: State, role: Speaker, content: string, now: int): (t: State)
    ensures |t.history| == |s.history| + 1
    ensures t.history[..|s.history|] == s.history
    ensures t.history[|s.history|] == Entry(role, content, now)
    ensures t.isActive == s.isActive && t.currentResponse == s.currentResponse
    ensures t.isLoading == s.isLoading && t.error == s.error
  {
    s.(history := s.history + [Entry(role, content, now)])
  }

  /** `clearHistory()`: the history is emptied and nothing else changes. */
  function ClearHistory(s: State): (t: State)
    ensures t.history == []
    ensures t.isActive == s.isActive && t.currentResponse == s.currentResponse
    ensures t.isLoading == s.isLoading && t.error == s.error
  {
    s.(history := [])
  }

  /** `partialize`: only the conversation history is written to storage. */
  function Partialize(s: State): (h: seq<Entry>)
    ensures h == s.history
  {
    s.history
  }

  /** The store's actions, with their arguments and clock reads. */
  datatype Action =
    | ActivateAction
    | DeactivateAction
    | SetResponseAction(response: string)
    | SetLoadingAction(loading: bool)
    | SetErrorAction(error: Option<string>)
    | AddToHistoryAction(role: Speaker, content: string, now: int)
    | ClearHistoryAction

  function Apply(s: State, a: Action): State {
    match a
    case ActivateAction => Activate(s)
    case DeactivateAction => Deactivate(s)
    case SetResponseAction(response) => SetResponse(s, response)
    case SetLoadingAction(loading) => SetLoading(s, loading)
    case SetErrorAction(error) => SetError(s, error)
    case AddToHistoryAction(role, content, now) => AddToHistory(s, role, content, now)
    case ClearHistoryAction => ClearHistory(s)
  }

  /** The state after the actions, in order. */
  function Run(s: State, actions: seq<Action>): State
    decreases |actions|
  {
    if |actions| == 0 then s else Run(Apply(s, actions[0]), actions[1..])
  }

  /** The entries `addToHistory` actions append, in order. */
  function Appended(actions: seq<Action>): seq<Entry>
    decreases |actions|
  {
    if |actions| == 0 then []
    else
      (match actions[0]
       case AddToHistoryAction(role, content, now) => [Entry(role, content, now)]
       case _ => [])
      + Appended(actions[1..])
  }

  /** Without a `clearHistory`, the persisted history only grows: it ends
      as the starting history followed by the appended entries, in order. */
  lemma {:induction false} HistoryAppendOnly(s: State, actions: seq<Action>)
    requires forall i :: 0 <= i < |actions| ==> !actions[i].ClearHistoryAction?
    ensures Partialize(Run(s, actions)) == Partialize(s) + Appended(actions)
    decreases |actions|
  {
    if |actions| > 0 {
      assert Run(s, actions) == Run(Apply(s, actions[0]), actions[1..]);
      HistoryAppendOnly(Apply(s, actions[0]), actions[1..]);
      assert Partialize(Apply(s, actions[0])) == Partialize(s) + Appended(actions[..1]);
      assert Appended(actions) == Appended(actions[..1]) + Appended(actions[1..]);
    }
  }

  /** Only `addToHistory` and `clearHistory` change what is persisted. */
  lemma OnlyHistoryActionsPersist(s: State, a: Action)
    requires !a.AddToHistoryAction? && !a.ClearHistoryAction?
    ensures Partialize(Apply(s, a)) == Partialize(s)
  {
  }

  /** Activating is idempotent and leaves no error behind, whatever error
      was set before, and deactivating afterwards keeps it that way. */
  lemma ActivationClearsError(s: State, e: Option<string>)
    ensures Activate(Activate(s)) == Activate(s)
    ensures Deactivate(Activate(s)).error.None?
    ensures Activate(SetError(s, e)).error.None?
  {
  }
}

=== FILE: base.dfy ===
/** Small shared vocabulary: optional values, the stand-in for JavaScript's
    `undefined`/`null` on a field. */
module Base {

  /** A value that may be absent (`undefined` or `null` in the source). */
  datatype Option<+T> = None | Some(value: T) {

    /** The carried value, or `default` when absent. */
    function GetOr(default: T): T {
      match this
      case Some(v) => v
      case None => default
    }
  }

  function Min(a: int, b: int): int {
    if a <= b then a else b
  }

  /** `a` is `b` with some elements left out, order kept. */
  predicate IsSubsequence<T(==)>(a: seq<T>, b: seq<T>)
    decreases |b|
  {
    if a == [] then true
    else if b == [] then false
    else if a[0] == b[0] then IsSubsequence(a[1..], b[1..])
    else IsSubsequence(a, b[1..])
  }

  /** How many elements satisfy `p`. */
  function CountIf<T>(s: seq<T>, p: T -> bool): (k: nat)
    ensures k <= |s|
  {
    if |s| == 0 then 0 else (if p(s[0]) then 1 else 0) + CountIf(s[1..], p)
  }

  /** `r` is `s.filter(p)`: the elements of `s` that satisfy `p`, all of
      them, in their order. */
  predicate IsFilterOf<T(==)>(r: seq<T>, s: seq<T>, p: T -> bool) {
    && IsSubsequence(r, s)
    && (forall i :: 0 <= i < |r| ==> p(r[i]))
    && |r| == CountIf(s, p)
  }

  /** Filtering one more leading element: kept, it heads the filter;
      dropped, the filter is unchanged. */
  lemma FilterCons<T>(x: T, s: seq<T>, r: seq<T>, p: T -> bool)
    requires IsFilterOf(r, s, p)
    ensures p(x) ==> IsFilterOf([x] + r, [x] + s, p)
    ensures !p(x) ==> IsFilterOf(r, [x] + s, p)
  {
    assert ([x] + s)[1..] == s;
    if p(x) {
      assert ([x] + r)[1..] == r;
      assert forall i :: 0 < i < |r| + 1 ==> ([x] + r)[i] == r[i - 1];
    } else {
      assert r != [] ==> r[0] != x;
    }
  }

  /** An order-keeping selection of elements that satisfy `p` has at most
      as many elements as satisfy `p`. */
  lemma {:induction false} SelectionBound<T>(r: seq<T>, s: seq<T>, p: T -> bool)
    requires IsSubsequence(r, s)
    requires forall i :: 0 <= i < |r| ==> p(r[i])
    ensures |r| <= CountIf(s, p)
    decreases |s|
  {
    if r != [] {
      if r[0] == s[0] {
        assert forall i :: 0 <= i < |r| - 1 ==> r[1..][i] == r[i + 1];
        SelectionBound(r[1..], s[1..], p);
      } else {
        SelectionBound(r, s[1..], p);
      }
    }
  }

  /** How a filter splits over the first element: a kept first element
      heads the filter, and a dropped one does not occur in it. */
  lemma FilterStep<T>(r: seq<T>, s: seq<T>, p: T -> bool)
    requires |s| > 0 && IsFilterOf(r, s, p)
    ensures p(s[0]) ==> |r| > 0 && r[0] == s[0] && IsFilterOf(r[1..], s[1..], p)
    ensures !p(s[0]) ==> IsFilterOf(r, s[1..], p)
  {
    if p(s[0]) {
      assert |r| > 0;
      if r[0] != s[0] {
        SelectionBound(r, s[1..], p);
        assert false;
      }
      assert forall i :: 0 <= i < |r| - 1 ==> r[1..][i] == r[i + 1];
    } else if r != [] {
      assert r[0] != s[0];
    }
  }

  /** The filter is unique: two sequences that both satisfy `IsFilterOf`
      for the same input and test are equal. */
  lemma {:induction false} FilterUnique<T>(r1: seq<T>, r2: seq<T>, s: seq<T>, p: T -> bool)
    requires IsFilterOf(r1, s, p) && IsFilterOf(r2, s, p)
    ensures r1 == r2
    decreases |s|
  {
    if |s| == 0 {
      assert r1 == [] && r2 == [];
    } else {
      FilterStep(r1, s, p);
      FilterStep(r2, s, p);
      if p(s[0]) {
        FilterUnique(r1[1..], r2[1..], s[1..], p);
        assert r1 == [r1[0]] + r1[1..];
        assert r2 == [r2[0]] + r2[1..];
      } else {
        FilterUnique(r1, r2, s[1..], p);
      }
    }
  }
}

=== FILE: errors.dfy ===
/** The error vocabulary of the AI services (src/services/ai/utils.ts and
    src/services/ai/types.ts): the tagged `AIError`, what a failed call can
    throw, credential validation and the classifier `handleApiError`. */
module Errors {
  import opened Base
  import opened Text

  datatype ErrorKind = Network | Api | Validation | RateLimit | Timeout

  /** The `AIError` class. Built without a flag it is not retryable and
      carries no status code. */
  datatype AIError = AIError(
    kind: ErrorKind,
    message: string,
    retryable: bool := false,
    statusCode: Option<int> := None)

  /** The properties `handleApiError` reads from an arbitrary thrown value:
      `error.message`, `error.response?.status`,
      `error.response.data?.error?.message` and `error.code`. */
  datatype FailureSignal = FailureSignal(
    message: string,
    status: Option<int>,
    detail: Option<string>,
    code: Option<string>)

  /** What an operation can throw: an `AIError`, any other error object
      (client library errors, plain `Error`s), or `undefined`. */
  datatype Thrown = Classified(error: AIError) | Raw(signal: FailureSignal) | Undefined

  /** The outcome of one asynchronous operation: its value, or what it threw. */
  datatype Outcome<+T> = Returned(value: T) | Threw(thrown: Thrown)

  /** `(error as Error).message`; `undefined` has none. */
  function MessageOf(t: Thrown): string
    requires !t.Undefined?
  {
    match t
    case Classified(e) => e.message
    case Raw(s) => s.message
  }

  /** The properties `handleApiError` sees on a thrown value. An `AIError`
      has a message but neither a `response` nor a `code`. */
  function SignalOf(t: Thrown): (s: FailureSignal)
    requires !t.Undefined?
    ensures s.message == MessageOf(t)
    ensures t.Classified? ==> s.status.None? && s.code.None?
  {
    match t
    case Classified(e) => FailureSignal(e.message, None, None, None)
    case Raw(s) => s
  }

  /** A class built without its optional flag is a non-retryable error
      without a status code. */
  lemma AIErrorDefaults(kind: ErrorKind, message: string)
    ensures !AIError(kind, message).retryable
    ensures AIError(kind, message).statusCode.None?
    ensures AIError(kind, message) == AIError(kind, message, false, None)
  {
  }

  const ApiKeyPrefix := "sk-"
  const MissingKeyMessage := "API key is required"
  const MalformedKeyMessage := "Invalid API key format"

  /** `validateApiKey`: `None` when the key is accepted, otherwise the
      validation error it throws. */
  function ValidateApiKey(apiKey: Option<string>): (r: Option<AIError>)
    ensures r.None? <==> apiKey.Some? && StartsWith(apiKey.value, ApiKeyPrefix)
    ensures r.Some? ==> r.value.kind == Validation && !r.value.retryable && r.value.statusCode.None?
    ensures r.Some? ==> (r.value.message == MissingKeyMessage <==> apiKey.None? || IsBlank(apiKey.value))
    ensures r.Some? ==> (r.value.message == MalformedKeyMessage <==> apiKey.Some? && !IsBlank(apiKey.value))
  {
    if apiKey.None? || apiKey.value == "" || Trim(apiKey.value) == "" then
      Some(AIError(Validation, MissingKeyMessage, false))
    else if !StartsWith(apiKey.value, ApiKeyPrefix) then
      Some(AIError(Validation, MalformedKeyMessage, false))
    else
      None
  }

  /** The response status is present and at least `n`; an absent status
      compares false, as `undefined >= n` does. */
  predicate StatusAtLeast(sig: FailureSignal, n: int) {
    sig.status.Some? && sig.status.value >= n
  }

  const TimeoutCodes: set<string> := {"ECONNABORTED"}
  const UnreachableCodes: set<string> := {"ENOTFOUND", "ECONNREFUSED"}

  /** The failures worth trying again, stated on the signal alone: rate
      limiting, server errors, and, when no error status is present, an
      aborted connection or an unreachable host. */
  predicate TransientSignal(sig: FailureSignal) {
    || sig.status == Some(429)
    || StatusAtLeast(sig, 500)
    || (!StatusAtLeast(sig, 400) && sig.code.Some? && sig.code.value in TimeoutCodes + UnreachableCodes)
  }

  /** The upstream message when the response carries a non-empty one,
      otherwise the error's own message. */
  function DetailOrMessage(sig: FailureSignal): string {
    if sig.detail.Some? && sig.detail.value != "" then sig.detail.value else sig.message
  }

  /** `handleApiError`: the `AIError` it throws for a failure signal. It
      never returns normally; the result here is the error raised. */
  function HandleApiError(sig: FailureSignal): (e: AIError)
    ensures sig.status == Some(429) ==> e == AIError(RateLimit, "Rate limit exceeded", true, Some(429))
    ensures e.kind == RateLimit <==> sig.status == Some(429)
    ensures StatusAtLeast(sig, 400) ==> e.statusCode == sig.status && e.kind in {RateLimit, Api}
    ensures StatusAtLeast(sig, 500) ==> e.kind == Api && e.retryable && e.message == "Server error"
    ensures StatusAtLeast(sig, 400) && !StatusAtLeast(sig, 500) && sig.status != Some(429) ==>
      e.kind == Api && !e.retryable && e.message == "API error: " + DetailOrMessage(sig)
    ensures !StatusAtLeast(sig, 400) ==> e.statusCode.None?
    ensures e.kind == Timeout <==> !StatusAtLeast(sig, 400) && sig.code == Some("ECONNABORTED")
    ensures e.kind == Timeout ==> e == AIError(Timeout, "Request timeout", true)
    ensures e.kind == Network ==> e == AIError(Network, "Network error", true)
    ensures e.kind == Network <==> !StatusAtLeast(sig, 400) && sig.code.Some? && sig.code.value in UnreachableCodes
    ensures e.kind != Validation
    ensures e.retryable <==> TransientSignal(sig)
    ensures !StatusAtLeast(sig, 400) && !TransientSignal(sig) ==>
      e.kind == Api && e.message == "Unexpected error: " + sig.message
  {
    if sig.status == Some(429) then
      AIError(RateLimit, "Rate limit exceeded", true, Some(429))
    else if StatusAtLeast(sig, 500) then
      AIError(Api, "Server error", true, sig.status)
    else if StatusAtLeast(sig, 400) then
      AIError(Api, "API error: " + DetailOrMessage(sig), false, sig.status)
    else if sig.code == Some("ECONNABORTED") then
      AIError(Timeout, "Request timeout", true)
    else if sig.code == Some("ENOTFOUND") || sig.code == Some("ECONNREFUSED") then
      AIError(Network, "Network error", true)
    else
      AIError(Api, "Unexpected error: " + sig.message, false)
  }

  /** Whatever was thrown, once it reaches `handleApiError` as an `AIError`
      it is reclassified as an unexpected, non-retryable API error: the
      class has no `response` and no `code` for the classifier to read. */
  lemma ClassifiedErrorsBecomeUnexpected(e: AIError)
    ensures HandleApiError(SignalOf(Classified(e))) ==
      AIError(Api, "Unexpected error: " + e.message, false, None)
  {
  }
}

=== FILE: factory.dfy ===
/** `createAIService` (src/services/ai/index.ts) and the `AIService`
    interface both providers implement (src/services/ai/types.ts). A service
    is one of the two provider states; every operation dispatches on it. */
module ServiceFactory {
  import opened Base
  import opened AITypes
  import opened Errors
  import OpenAIService
  import MockService

  datatype Service = OpenAI(openai: OpenAIService.State) | Mock(mock: MockService.State)

  const UnsupportedPrefix := "Unsupported AI provider: "

  /** `createAIService`: the provider name picks the implementation; the
      real provider's construction failure reaches the caller unchanged,
      and an unknown name is refused with a plain `Error`. */
  function CreateAIService(config: ServiceConfig): (r: Outcome<Service>)
    ensures config.provider == "openai" ==>
      && (r.Returned? <==> ValidateApiKey(config.apiKey).None?)
      && (r.Returned? ==> r.value == OpenAI(OpenAIService.State(config, None)))
      && (r.Threw? ==> r.thrown == Classified(ValidateApiKey(config.apiKey).value))
    ensures config.provider == "mock" ==> r == Returned(Mock(MockService.State(None)))
    ensures config.provider != "openai" && config.provider != "mock" ==>
      r == Threw(Raw(FailureSignal(UnsupportedPrefix + config.provider, None, None, None)))
  {
    if config.provider == "openai" then
      match OpenAIService.Construct(config)
      case Returned(s) => Returned(OpenAI(s))
      case Threw(e) => Threw(e)
    else if config.provider == "mock" then
      Returned(Mock(MockService.Construct(config)))
    else
      Threw(Raw(FailureSignal(UnsupportedPrefix + config.provider, None, None, None)))
  }

  /** A fresh service of either kind reports itself available with no
      error. */
  lemma FreshServiceAvailable(config: ServiceConfig)
    requires CreateAIService(config).Returned?
    ensures GetServiceStatus(CreateAIService(config).value) == ServiceStatus(true, None)
  {
  }

  /** Everything outside the service that decides a call: the real
      provider's per-invocation attempt results and the simulated
      provider's random draws. */
  datatype Environment = Environment(
    attempts: nat -> OpenAIService.AttemptResult,
    failDraw: MockService.Draw,
    pickDraw: MockService.Draw,
    sentimentDraw: MockService.Draw,
    tagDraw: MockService.Draw)

  /** The service after a call, and the call's outcome. */
  datatype Response<T> = Response(service: Service, outcome: Outcome<T>)

  /** `generateResponse(prompt, context)`: a reply is never empty, whichever
      provider answers. The simulated provider ignores the context. */
  function GenerateResponse(svc: Service, prompt: string, context: Option<string>, env: Environment): (r: Response<string>)
    ensures r.outcome.Returned? ==> r.outcome.value != "" && r.service == svc
    ensures r.service.OpenAI? <==> svc.OpenAI?
    ensures svc.OpenAI? ==> var c := OpenAIService.GenerateResponse(svc.openai, prompt, context, env.attempts);
      r == Response(OpenAI(c.state), c.outcome)
    ensures svc.Mock? ==> var m := MockService.GenerateResponse(svc.mock, prompt, env.failDraw, env.pickDraw);
      r == Response(Mock(m.state), m.outcome)
  {
    match svc
    case OpenAI(s) =>
      var c := OpenAIService.GenerateResponse(s, prompt, context, env.attempts);
      Response(OpenAI(c.state), c.outcome)
    case Mock(s) =>
      var m := MockService.GenerateResponse(s, prompt, env.failDraw, env.pickDraw);
      Response(Mock(m.state), m.outcome)
  }

  /** `analyzeNote(content)`: an analysis always has between one and five
      key points and at least one tag. */
  function AnalyzeNote(svc: Service, noteContent: string, env: Environment): (r: Response<NoteAnalysis>)
    ensures r.outcome.Returned? ==>
      && 1 <= |r.outcome.value.keyPoints| <= 5
      && |r.outcome.value.suggestedTags| >= 1
      && r.service == svc
    ensures svc.Mock? ==> r.outcome.Returned?
    ensures svc.OpenAI? ==> var c := OpenAIService.AnalyzeNote(svc.openai, noteContent, env.attempts);
      r == Response(OpenAI(c.state), c.outcome)
    ensures svc.Mock? ==> r == Response(svc, Returned(MockService.AnalyzeNote(noteContent, env.sentimentDraw, env.tagDraw)))
  {
    match svc
    case OpenAI(s) =>
      var c := OpenAIService.AnalyzeNote(s, noteContent, env.attempts);
      Response(OpenAI(c.state), c.outcome)
    case Mock(s) =>
      Response(svc, Returned(MockService.AnalyzeNote(noteContent, env.sentimentDraw, env.tagDraw)))
  }

  /** `summarizeText(text)`: a summary is never empty. */
  function SummarizeText(svc: Service, text: string, env: Environment): (r: Response<string>)
    ensures r.outcome.Returned? ==> r.outcome.value != "" && r.service == svc
    ensures svc.Mock? ==> r.outcome.Returned?
    ensures svc.OpenAI? ==> var c := OpenAIService.SummarizeText(svc.openai, text, env.attempts);
      r == Response(OpenAI(c.state), c.outcome)
    ensures svc.Mock? ==> r == Response(svc, Returned(MockService.SummarizeText(text)))
  {
    match svc
    case OpenAI(s) =>
      var c := OpenAIService.SummarizeText(s, text, env.attempts);
      Response(OpenAI(c.state), c.outcome)
    case Mock(s) =>
      Response(svc, Returned(MockService.SummarizeText(text)))
  }

  /** `getServiceStatus()`: the simulated provider is always available;
      the real one until a failure with a message is recorded. */
  function GetServiceStatus(svc: Service): (st: ServiceStatus)
    ensures svc.Mock? ==> st.available
    ensures svc.OpenAI? ==> (st.available <==> st.lastError.None? || st.lastError.value == "")
    ensures st.lastError.Some? && st.lastError.value != "" ==> svc.OpenAI? || st.lastError == svc.mock.lastError
    ensures svc.OpenAI? ==> st == OpenAIService.GetServiceStatus(svc.openai)
    ensures svc.Mock? ==> st == MockService.GetServiceStatus(svc.mock)
  {
    match svc
    case OpenAI(s) => OpenAIService.GetServiceStatus(s)
    case Mock(s) => MockService.GetServiceStatus(s)
  }

  /** A bare `{provider: 'mock'}` configuration makes a fresh simulated
      service. */
  lemma MockConfigCreatesMock()
    ensures CreateAIService(ServiceConfig("mock", None, None, None, None)) == Returned(Mock(MockService.State(None)))
  {
    assert "mock" != "openai" by { assert "mock"[0] != "openai"[0]; }
  }

  /** The smoke scenario of src/services/ai/test.ts, for any prompt and note:
      a simulated service is created from a bare `{provider: 'mock'}`; its
      reply, unless the failure draw hits, is non-empty and leaves it
      available; its analysis has the three fixed key points. */
  lemma MockSmokeScenario(env: Environment, prompt: string, noteContent: string)
    requires env.failDraw >= MockService.FailureRate
    ensures var created := CreateAIService(ServiceConfig("mock", None, None, None, None));
      && created.Returned?
      && var r := GenerateResponse(created.value, prompt, None, env);
      && r.outcome.Returned? && r.outcome.value != ""
      && GetServiceStatus(r.service).available
      && AnalyzeNote(created.value, noteContent, env).outcome.value.keyPoints == MockService.FixedKeyPoints
  {
    MockConfigCreatesMock();
  }

  /** A failed reply is reported by the status of the service the call
      leaves behind: the simulated provider stays available with its fixed
      message; the real one records the message of the error it caught
      (when the retry count let it invoke the client at all) and is
      unavailable unless that message is empty. */
  lemma FailedReplyIsReported(svc: Service, prompt: string, context: Option<string>, env: Environment)
    requires GenerateResponse(svc, prompt, context, env).outcome.Threw?
    ensures var st := GetServiceStatus(GenerateResponse(svc, prompt, context, env).service);
      svc.Mock? ==> st.available && st.lastError == Some(MockService.MockFailureMessage)
    ensures svc.OpenAI? && OpenAIService.EffectiveMaxRetries(svc.openai.config) >= 1 ==>
      var st := GetServiceStatus(GenerateResponse(svc, prompt, context, env).service);
      var run := OpenAIService.CallWithRetry(svc.openai, env.attempts);
        && run.outcome.Threw?
        && st.lastError == Some(MessageOf(run.outcome.thrown))
        && (st.available <==> MessageOf(run.outcome.thrown) == "")
  {
  }

  /** The simulated provider has no use for the context. */
  lemma MockIgnoresContext(svc: Service, prompt: string, context: Option<string>, env: Environment)
    requires svc.Mock?
    ensures GenerateResponse(svc, prompt, context, env) == GenerateResponse(svc, prompt, None, env)
  {
  }
}

=== FILE: mock_service.dfy ===
/** The simulated provider (src/services/ai/MockAIService.ts). Each
    `Math.random()` draw that decides a result is a parameter in [0, 1); the
    draws that only size the simulated network delay are left out with the
    delay itself. */
module MockService {
  import opened Base
  import opened Text
  import opened AITypes
  import opened Errors

  /** A value `Math.random()` can return. */
  type Draw = r: real | 0.0 <= r < 1.0

  /** The simulated service remembers the message of its last failure. */
  datatype State = State(lastError: Option<string>)

  /** `constructor(_config)`: the configuration is ignored. */
  function Construct(config: ServiceConfig): (s: State)
    ensures s.lastError.None?
  {
    State(None)
  }

  const FailureRate: real := 0.1
  const MockFailureMessage := "Mock service error for testing"
  const EchoLimit := 50
  const EchoHeader := "I understand you're asking about: \""
  const OrganiseReply := "Based on the context provided, I can help you organize your thoughts and ideas."
  const FollowUpReply := "Would you like me to help summarize or analyze this content further?"

  /** `Math.floor(r * n)`: a uniform pick among `n` choices. */
  function Pick(r: Draw, n: nat): (i: nat)
    requires n > 0
    ensures i < n
    ensures i as real <= r * n as real < i as real + 1.0
  {
    PickBelow(r, n);
    (r * n as real).Floor
  }

  lemma PickBelow(r: Draw, n: nat)
    requires n > 0
    ensures 0.0 <= r * n as real < n as real
  {
    assert r * n as real < 1.0 * n as real;
  }

  /** The pick covers every choice: draw `i / n` picks choice `i`. */
  lemma PickCoversAll(n: nat, i: nat)
    requires i < n
    ensures var r: Draw := i as real / n as real; Pick(r, n) == i
  {
    var r: Draw := i as real / n as real;
    assert r * n as real == i as real;
  }

  /** The echo reply: the prompt quoted, cut at 50 characters, with an
      ellipsis after a cut. */
  function EchoReply(prompt: string): (r: string)
    ensures |prompt| <= EchoLimit ==> r == EchoHeader + prompt + "\""
    ensures |prompt| > EchoLimit ==> r == EchoHeader + prompt[..EchoLimit] + "...\""
    ensures |r| <= |EchoHeader| + EchoLimit + 4
  {
    EchoHeader + Prefix(prompt, EchoLimit) + (if |prompt| > EchoLimit then "..." else "") + "\""
  }

  /** The six canned replies, in order. */
  function Replies(prompt: string): (rs: seq<string>)
    ensures |rs| == 6
    ensures forall i :: 0 <= i < |rs| ==> rs[i] != ""
    ensures rs[3] == EchoReply(prompt)
  {
    [GreetingResponse, AnalysisResponse, SummaryResponse, EchoReply(prompt), OrganiseReply, FollowUpReply]
  }

  /** `|| MOCK_RESPONSES.GREETING`: the empty string falls back. */
  function OrGreeting(s: string): (r: string)
    ensures r != ""
    ensures s != "" ==> r == s
  {
    if s == "" then GreetingResponse else s
  }

  /** One reply of the simulated service. */
  datatype Reply = Reply(state: State, outcome: Outcome<string>)

  /** `generateResponse`: with probability one in ten it records and throws
      the simulated failure; otherwise it returns one of the canned replies,
      leaving the state alone. Once a failure is recorded it stays recorded. */
  function GenerateResponse(s: State, prompt: string, failDraw: Draw, pickDraw: Draw): (r: Reply)
    ensures r.outcome.Threw? <==> failDraw < FailureRate
    ensures r.outcome.Threw? ==>
      && r.outcome.thrown == Raw(FailureSignal(MockFailureMessage, None, None, None))
      && r.state.lastError == Some(MockFailureMessage)
    ensures r.outcome.Returned? ==>
      && r.state == s
      && r.outcome.value == Replies(prompt)[Pick(pickDraw, |Replies(prompt)|)]
      && r.outcome.value != ""
    ensures s.lastError.Some? ==> r.state.lastError.Some?
  {
    if failDraw < FailureRate then
      Reply(State(Some(MockFailureMessage)), Threw(Raw(FailureSignal(MockFailureMessage, None, None, None))))
    else
      Reply(s, Returned(OrGreeting(Replies(prompt)[Pick(pickDraw, 6)])))
  }

  /** Every canned reply can come back, and so can the failure: the draws
      decide which. */
  lemma EveryReplyReachable(s: State, prompt: string, i: nat)
    requires i < 6
    ensures var pick: Draw := i as real / 6.0;
      GenerateResponse(s, prompt, 0.5, pick).outcome == Returned(Replies(prompt)[i])
    ensures GenerateResponse(s, prompt, 0.0, 0.0).outcome.Threw?
  {
    var pick: Draw := i as real / 6.0;
    PickCoversAll(6, i);
    assert Pick(pick, |Replies(prompt)|) == i;
  }

  /** `Math.ceil(n / d)` for a count `n`. */
  function CeilDiv(n: nat, d: nat): (q: nat)
    requires d > 0
    ensures d * q >= n
    ensures q > 0 ==> d * (q - 1) < n
  {
    (n + d - 1) / d
  }

  const SentimentChoices := [Positive, Negative, Neutral]
  const TagChoices := ["productivity", "ideas", "research", "personal", "work", "learning"]
  const FixedKeyPoints := [
    "Main theme: Organization and productivity",
    "Secondary theme: Knowledge management",
    "Suggested action: Review and categorize"]

  const IdeasHeader := "This note contains "
  const IdeasTrailer := " key ideas about various topics."

  /** `r` is `header`, then a decimal numeral reading `count`, then
      `trailer`. */
  predicate States(r: string, header: string, count: nat, trailer: string) {
    && |r| > |header| + |trailer|
    && r[..|header|] == header
    && r[|r| - |trailer|..] == trailer
    && IsNumeral(r[|header|..|r| - |trailer|])
    && DecimalValue(r[|header|..|r| - |trailer|]) == count
  }

  /** The sentence with the count rendered in decimal. */
  function CountSentence(header: string, count: nat, trailer: string): (r: string)
    ensures States(r, header, count, trailer)
  {
    var digits := NatToString(count);
    var r := header + digits + trailer;
    assert r[..|header|] == header;
    assert r[|r| - |trailer|..] == trailer;
    assert r[|header|..|r| - |trailer|] == digits;
    DecimalRoundTrip(count);
    r
  }

  /** `analyzeNote`: a fixed analysis shape whose summary counts started
      50-character blocks, with a drawn sentiment and the first two to four
      of the six fixed tags. */
  function AnalyzeNote(noteContent: string, sentimentDraw: Draw, tagDraw: Draw): (a: NoteAnalysis)
    ensures States(a.summary, IdeasHeader, CeilDiv(|noteContent|, 50), IdeasTrailer)
    ensures a.keyPoints == FixedKeyPoints
    ensures |a.suggestedTags| == 2 + Pick(tagDraw, 3)
    ensures 2 <= |a.suggestedTags| <= 4
    ensures a.suggestedTags == TagChoices[..|a.suggestedTags|]
    ensures a.sentiment == Positive <==> sentimentDraw < 1.0 / 3.0
    ensures a.sentiment == Neutral <==> sentimentDraw >= 2.0 / 3.0
  {
    NoteAnalysis(
      CountSentence(IdeasHeader, CeilDiv(|noteContent|, 50), IdeasTrailer),
      FixedKeyPoints,
      TagChoices[..2 + Pick(tagDraw, 3)],
      SentimentChoices[Pick(sentimentDraw, 3)])
  }

  const PointsHeader := "This text discusses "
  const PointsTrailer := " main points about an important topic. The key ideas include fundamental concepts and practical applications that are relevant to the subject matter."

  /** `summarizeText`: a fixed sentence whose only variable part is a
      count of main points, one per started block of 100 characters. */
  function SummarizeText(text: string): (r: string)
    ensures States(r, PointsHeader, CeilDiv(|text|, 100), PointsTrailer)
  {
    CountSentence(PointsHeader, CeilDiv(|text|, 100), PointsTrailer)
  }

  /** `getServiceStatus`: always available; an empty message reads as none. */
  function GetServiceStatus(s: State): (st: ServiceStatus)
    ensures st.available
    ensures st.lastError.None? <==> s.lastError.None? || s.lastError.value == ""
    ensures st.lastError.Some? ==> st.lastError == s.lastError
  {
    ServiceStatus(true, if s.lastError.Some? && s.lastError.value != "" then s.lastError else None)
  }

  /** After a simulated failure the status reports it but stays available. */
  lemma FailureReportedButAvailable(s: State, prompt: string, failDraw: Draw, pickDraw: Draw)
    requires failDraw < FailureRate
    ensures var st := GetServiceStatus(GenerateResponse(s, prompt, failDraw, pickDraw).state);
      st.available && st.lastError == Some(MockFailureMessage)
  {
  }
}

=== FILE: note_store.dfy ===
/** The note store (src/stores/useNoteStore.ts, shapes from
    src/stores/types.ts). Every action is a pure transition from one store
    state to the next; `set` merges the fields it names into the state and
    keeps the others. Clock reads are parameters. */
module NoteStore {
  import opened Base
  import opened Text

  datatype ViewMode = List | Grid

  /** A clock reading in milliseconds. */
  type Instant = int

  datatype Note = Note(
    id: string,
    content: string,
    createdAt: Instant,
    updatedAt: Instant,
    tags: seq<string>,
    title: Option<string>)

  datatype State = State(
    notes: seq<Note>,
    currentNoteId: Option<string>,
    searchQuery: string,
    filterTags: seq<string>,
    viewMode: ViewMode,
    isSidebarOpen: bool)

  /** The state a new store starts in. */
  const Initial := State([], None, "", [], List, false)

  /** The view settings are as they were. */
  predicate SameSettings(s: State, t: State) {
    && t.searchQuery == s.searchQuery
    && t.filterTags == s.filterTags
    && t.viewMode == s.viewMode
    && t.isSidebarOpen == s.isSidebarOpen
  }

  const TitlePrefix := "Note "

  /** The title a note gets without one of its own: "Note " and the count
      of notes including the new one. */
  function DefaultTitle(priorCount: nat): (r: string)
    ensures |r| > |TitlePrefix| && r[..|TitlePrefix|] == TitlePrefix
    ensures IsNumeral(r[|TitlePrefix|..]) && DecimalValue(r[|TitlePrefix|..]) == priorCount + 1
  {
    var digits := NatToString(priorCount + 1);
    var r := TitlePrefix + digits;
    assert r[|TitlePrefix|..] == digits;
    DecimalRoundTrip(priorCount + 1);
    r
  }

  /** `addNote(content, title)`. `idTime` is the `Date.now()` the id is made
      from; `createdAt` and `updatedAt` are the two `new Date()` reads. An
      absent or empty title falls back to the default. The new note goes in
      front, the earlier notes follow unchanged, and it becomes current. */
  function AddNote(s: State, content: string, title: Option<string>, idTime: nat, createdAt: Instant, updatedAt: Instant): (t: State)
    ensures |t.notes| == |s.notes| + 1 && t.notes[1..] == s.notes
    ensures t.notes[0].id == NatToString(idTime)
    ensures t.notes[0].content == content && t.notes[0].tags == []
    ensures t.notes[0].createdAt == createdAt && t.notes[0].updatedAt == updatedAt
    ensures title.Some? && title.value != "" ==> t.notes[0].title == title
    ensures title.None? || title.value == "" ==> t.notes[0].title == Some(DefaultTitle(|s.notes|))
    ensures t.currentNoteId == Some(t.notes[0].id)
    ensures SameSettings(s, t)
  {
    var note := Note(
      NatToString(idTime),
      content,
      createdAt,
      updatedAt,
      [],
      Some(if title.Some? && title.value != "" then title.value else DefaultTitle(|s.notes|)));
    s.(notes := [note] + s.notes, currentNoteId := Some(note.id))
  }

  /** One note after `updateNote(id, content)`. */
  function Revised(n: Note, id: string, content: string, now: Instant): Note {
    if n.id == id then n.(content := content, updatedAt := now) else n
  }

  /** `updateNote(id, content)`: every note with that id gets the new
      content and modification time and keeps its id, creation time, tags
      and title; every other note, the order and the length are unchanged.
      The clock is read afresh for each note with the id as the list is
      mapped: `clock(i)` is the reading taken at position `i`. */
  function UpdateNote(s: State, id: string, content: string, clock: nat -> Instant): (t: State)
    ensures |t.notes| == |s.notes|
    ensures forall i :: 0 <= i < |s.notes| ==>
      && t.notes[i].id == s.notes[i].id
      && t.notes[i].createdAt == s.notes[i].createdAt
      && t.notes[i].tags == s.notes[i].tags
      && t.notes[i].title == s.notes[i].title
    ensures forall i :: 0 <= i < |s.notes| && s.notes[i].id == id ==>
      t.notes[i].content == content && t.notes[i].updatedAt == clock(i)
    ensures forall i :: 0 <= i < |s.notes| && s.notes[i].id != id ==> t.notes[i] == s.notes[i]
    ensures t.currentNoteId == s.currentNoteId && SameSettings(s, t)
  {
    var notes := seq(|s.notes|, i requires 0 <= i < |s.notes| => Revised(s.notes[i], id, content, clock(i)));
    assert forall i :: 0 <= i < |notes| ==> notes[i] == Revised(s.notes[i], id, content, clock(i));
    s.(notes := notes)
  }

  /** Updating twice with the same arguments and clock readings is
      updating once, and updating an id no note has changes nothing. */
  lemma UpdateIdempotent(s: State, id: string, content: string, clock: nat -> Instant)
    ensures UpdateNote(UpdateNote(s, id, content, clock), id, content, clock) == UpdateNote(s, id, content, clock)
    ensures (forall i :: 0 <= i < |s.notes| ==> s.notes[i].id != id) ==> UpdateNote(s, id, content, clock) == s
  {
    var once := UpdateNote(s, id, content, clock);
    var twice := UpdateNote(once, id, content, clock);
    assert twice.notes == once.notes;
    if forall i :: 0 <= i < |s.notes| ==> s.notes[i].id != id {
      assert once.notes == s.notes;
    }
  }

  /** The filter's test `note => note.id !== id`. */
  function OtherId(id: string): (p: Note -> bool)
    ensures forall n :: p(n) <==> n.id != id
  {
    (n: Note) => n.id != id
  }

  /** `notes.filter(note => note.id !== id)`: exactly the notes without that
      id survive, in their order, and nothing changes when no note has it. */
  function Without(notes: seq<Note>, id: string): (r: seq<Note>)
    ensures forall n :: n in r <==> n in notes && n.id != id
    ensures IsFilterOf(r, notes, OtherId(id))
    ensures (forall i :: 0 <= i < |notes| ==> notes[i].id != id) ==> r == notes
    decreases |notes|
  {
    if |notes| == 0 then []
    else
      var rest := Without(notes[1..], id);
      assert notes == [notes[0]] + notes[1..];
      FilterCons(notes[0], notes[1..], rest, OtherId(id));
      if notes[0].id == id then
        assert rest != [] ==> rest[0] in rest;
        rest
      else
        assert ([notes[0]] + rest)[1..] == rest;
        [notes[0]] + rest
  }

  /** `deleteNote(id)`: the notes with that id go, and the current note is
      cleared exactly when it was the deleted id. */
  function DeleteNote(s: State, id: string): (t: State)
    ensures forall n :: n in t.notes <==> n in s.notes && n.id != id
    ensures IsFilterOf(t.notes, s.notes, OtherId(id))
    ensures t.currentNoteId.None? <==> s.currentNoteId.None? || s.currentNoteId == Some(id)
    ensures t.currentNoteId.Some? ==> t.currentNoteId == s.currentNoteId
    ensures SameSettings(s, t)
  {
    s.(notes := Without(s.notes, id), currentNoteId := if s.currentNoteId == Some(id) then None else s.currentNoteId)
  }

  /** Deleting a note just added, under an id no earlier note had, gives
      back the earlier notes; the current note is then cleared. */
  lemma AddThenDelete(s: State, content: string, title: Option<string>, idTime: nat, createdAt: Instant, updatedAt: Instant)
    requires forall i :: 0 <= i < |s.notes| ==> s.notes[i].id != NatToString(idTime)
    ensures var t := DeleteNote(AddNote(s, content, title, idTime, createdAt, updatedAt), NatToString(idTime));
      t.notes == s.notes && t.currentNoteId.None? && SameSettings(s, t)
  {
    var added := AddNote(s, content, title, idTime, createdAt, updatedAt);
    assert added.notes == [added.notes[0]] + s.notes;
  }

  /** `setCurrentNote(id)`. */
  function SetCurrentNote(s: State, id: Option<string>): (t: State)
    ensures t.currentNoteId == id && t.notes == s.notes && SameSettings(s, t)
  {
    s.(currentNoteId := id)
  }

  /** `setSearchQuery(query)`. */
  function SetSearchQuery(s: State, query: string): (t: State)
    ensures t.searchQuery == query
    ensures t.notes == s.notes && t.currentNoteId == s.currentNoteId
    ensures t.filterTags == s.filterTags && t.viewMode == s.viewMode && t.isSidebarOpen == s.isSidebarOpen
  {
    s.(searchQuery := query)
  }

  /** `setFilterTags(tags)`. */
  function SetFilterTags(s: State, tags: seq<string>): (t: State)
    ensures t.filterTags == tags
    ensures t.notes == s.notes && t.currentNoteId == s.currentNoteId
    ensures t.searchQuery == s.searchQuery && t.viewMode == s.viewMode && t.isSidebarOpen == s.isSidebarOpen
  {
    s.(filterTags := tags)
  }

  /** `setViewMode(mode)`. */
  function SetViewMode(s: State, mode: ViewMode): (t: State)
    ensures t.viewMode == mode
    ensures t.notes == s.notes && t.currentNoteId == s.currentNoteId
    ensures t.searchQuery == s.searchQuery && t.filterTags == s.filterTags && t.isSidebarOpen == s.isSidebarOpen
  {
    s.(viewMode := mode)
  }

  /** `toggleSidebar()`. */
  function ToggleSidebar(s: State): (t: State)
    ensures t.isSidebarOpen == !s.isSidebarOpen
    ensures t.notes == s.notes && t.currentNoteId == s.currentNoteId
    ensures t.searchQuery == s.searchQuery && t.filterTags == s.filterTags && t.viewMode == s.viewMode
  {
    s.(isSidebarOpen := !s.isSidebarOpen)
  }

  /** Toggling twice restores the state; setting a field twice keeps the
      last value. */
  lemma TogglesAndSettersCompose(s: State, a: ViewMode, b: ViewMode, q: string, r: string, id1: Option<string>, id2: Option<string>)
    ensures ToggleSidebar(ToggleSidebar(s)) == s
    ensures SetViewMode(SetViewMode(s, a), b) == SetViewMode(s, b)
    ensures SetSearchQuery(SetSearchQuery(s, q), r) == SetSearchQuery(s, r)
    ensures SetCurrentNote(SetCurrentNote(s, id1), id2) == SetCurrentNote(s, id2)
  {
  }

  /** What the store writes to storage. */
  datatype Persisted = Persisted(notes: seq<Note>, currentNoteId: Option<string>, viewMode: ViewMode, isSidebarOpen: bool)

  /** `partialize`: the notes, the current note, the view mode and the
      sidebar flag; the search query and the tag filter are not kept. */
  function Partialize(s: State): (p: Persisted)
    ensures p.notes == s.notes && p.currentNoteId == s.currentNoteId
    ensures p.viewMode == s.viewMode && p.isSidebarOpen == s.isSidebarOpen
  {
    Persisted(s.notes, s.currentNoteId, s.viewMode, s.isSidebarOpen)
  }

  /** Two states persist alike exactly when they agree on the four kept
      fields; the search query and the tag filter never reach storage. */
  lemma PartializeKeepsExactly(s: State, t: State)
    ensures Partialize(s) == Partialize(t) <==>
      s.notes == t.notes && s.currentNoteId == t.currentNoteId && s.viewMode == t.viewMode && s.isSidebarOpen == t.isSidebarOpen
    ensures Partialize(SetFilterTags(SetSearchQuery(s, t.searchQuery), t.filterTags)) == Partialize(s)
  {
  }
}

=== FILE: openai_service.dfy ===
/** The real provider (src/services/ai/OpenAIService.ts). The chat-completion
    client is not modelled: each invocation of it is an abstract attempt
    result, `attempts(a)` for the `a`-th invocation, which either completes
    (with or without content), fails inside the client, or loses the race
    against the deadline. The three operations wrap the call in `withTimeout`
    inside `withRetry`, and on failure record the message and classify. */
module OpenAIService {
  import opened Base
  import opened Text
  import opened AITypes
  import opened Errors
  import opened Retry
  import opened AnalysisParser

  const ChatModel := "gpt-3.5-turbo"
  const AssistantInstruction := "You are a helpful AI assistant that helps users with note-taking, organization, and knowledge management. Provide clear, concise, and helpful responses."
  const AnalystInstruction := "You are an expert at analyzing notes. Provide structured analysis with summary, key points, tags, and sentiment."
  const SummarizerInstruction := "You are an expert at summarizing text. Provide concise, accurate summaries that capture the main points."
  const ContextHeader := "Context from user's notes: "
  const AnalysisPromptHeader := "Analyze the following note and provide:\n1. A brief summary\n2. 3-5 key points \n3. Suggested tags (comma-separated)\n4. Sentiment analysis (positive/negative/neutral)\n\nNote content: "
  const SummaryPromptHeader := "Please summarize the following text: "
  const AnalysisInputLimit := 2000
  const SummaryInputLimit := 3000
  const NoResponse := "No response generated"
  const NoSummary := "Unable to generate summary"

  /** What reading `.message` off a thrown `undefined` throws instead
      (the V8 wording of the TypeError). */
  const UndefinedMessageError := "Cannot read properties of undefined (reading 'message')"

  /** A constructed service: its configuration and the message of the last
      failure, if any. */
  datatype State = State(config: ServiceConfig, lastError: Option<string>)

  /** One chat-completion request. */
  datatype Request = Request(model: string, messages: seq<ChatMessage>, maxTokens: nat, temperature: real)

  /** What one invocation of the client did. */
  datatype AttemptResult =
    | Completed(content: Option<string>)
    | ClientFailed(signal: FailureSignal)
    | DeadlineExpired

  /** One operation: the request every attempt sent, the service state after
      the call, its outcome and how many times the client was invoked. */
  datatype Call<T> = Call(request: Request, state: State, outcome: Outcome<T>, invocations: nat)

  /** `config.timeout || DEFAULT_TIMEOUT`: zero counts as unset. */
  function EffectiveTimeout(config: ServiceConfig): (t: int)
    ensures t != 0
    ensures config.timeout.Some? && config.timeout.value != 0 ==> t == config.timeout.value
    ensures config.timeout.None? || config.timeout == Some(0) ==> t == DefaultTimeout
  {
    if config.timeout.Some? && config.timeout.value != 0 then config.timeout.value else DefaultTimeout
  }

  /** `config.maxRetries || DEFAULT_MAX_RETRIES`: zero counts as unset, a
      negative count is kept. */
  function EffectiveMaxRetries(config: ServiceConfig): (n: int)
    ensures n != 0
    ensures config.maxRetries.Some? && config.maxRetries.value != 0 ==> n == config.maxRetries.value
    ensures config.maxRetries.None? || config.maxRetries == Some(0) ==> n == DefaultMaxRetries
  {
    if config.maxRetries.Some? && config.maxRetries.value != 0 then config.maxRetries.value else DefaultMaxRetries
  }

  /** The constructor: the key is validated before a client is built, and a
      validation failure is thrown to the caller. */
  function Construct(config: ServiceConfig): (r: Outcome<State>)
    ensures r.Returned? <==> config.apiKey.Some? && StartsWith(config.apiKey.value, ApiKeyPrefix)
    ensures r.Returned? ==> r.value == State(config, None)
    ensures r.Threw? ==> r.thrown.Classified? && r.thrown.error.kind == Validation && !r.thrown.error.retryable
    ensures r.Threw? ==> r.thrown == Classified(ValidateApiKey(config.apiKey).value)
  {
    match ValidateApiKey(config.apiKey)
    case Some(e) => Threw(Classified(e))
    case None => Returned(State(config, None))
  }

  /** `getServiceStatus`: available while no failure message (an empty one
      is falsy) has been recorded. Any instance a caller holds has a client:
      construction either builds one or throws. */
  function GetServiceStatus(s: State): (st: ServiceStatus)
    ensures st.lastError == s.lastError
    ensures st.available <==> s.lastError.None? || s.lastError.value == ""
  {
    ServiceStatus(s.lastError.None? || s.lastError.value == "", s.lastError)
  }

  /** A context counts when it is present and non-empty (`if (context)`). */
  predicate HasContext(context: Option<string>) {
    context.Some? && context.value != ""
  }

  /** The messages `generateResponse` sends. */
  function ResponseMessages(prompt: string, context: Option<string>): (m: seq<ChatMessage>)
    ensures |m| == if HasContext(context) then 3 else 2
    ensures m[0] == ChatMessage(System, AssistantInstruction)
    ensures m[|m| - 1] == ChatMessage(User, prompt)
    ensures HasContext(context) ==> m[1] == ChatMessage(System, ContextHeader + context.value)
    ensures forall i :: 0 <= i < |m| - 1 ==> m[i].role == System
  {
    [ChatMessage(System, AssistantInstruction)]
    + (if HasContext(context) then [ChatMessage(System, ContextHeader + context.value)] else [])
    + [ChatMessage(User, prompt)]
  }

  function ResponseRequest(prompt: string, context: Option<string>): Request {
    Request(ChatModel, ResponseMessages(prompt, context), 500, 0.7)
  }

  /** The request `analyzeNote` sends: only the first 2000 characters of the
      note go into the prompt. */
  function AnalysisRequest(noteContent: string): (req: Request)
    ensures |req.messages| == 2 && req.messages[0] == ChatMessage(System, AnalystInstruction)
    ensures req.messages[1].role == User
    ensures req.messages[1].content == AnalysisPromptHeader + Prefix(noteContent, AnalysisInputLimit)
    ensures |req.messages[1].content| <= |AnalysisPromptHeader| + AnalysisInputLimit
  {
    Request(ChatModel,
      [ChatMessage(System, AnalystInstruction),
       ChatMessage(User, AnalysisPromptHeader + Prefix(noteContent, AnalysisInputLimit))],
      300, 0.3)
  }

  /** The request `summarizeText` sends: only the first 3000 characters of
      the text go into the prompt. */
  function SummaryRequest(text: string): (req: Request)
    ensures |req.messages| == 2 && req.messages[0] == ChatMessage(System, SummarizerInstruction)
    ensures req.messages[1].role == User
    ensures req.messages[1].content == SummaryPromptHeader + Prefix(text, SummaryInputLimit)
    ensures |req.messages[1].content| <= |SummaryPromptHeader| + SummaryInputLimit
  {
    Request(ChatModel,
      [ChatMessage(System, SummarizerInstruction),
       ChatMessage(User, SummaryPromptHeader + Prefix(text, SummaryInputLimit))],
      200, 0.4)
  }

  /** Text past the input limit never reaches the endpoint: two notes that
      agree on their first 2000 characters (or two texts on their first
      3000) produce the same request. */
  lemma TruncatedInputsAgree(a: string, b: string)
    ensures Prefix(a, AnalysisInputLimit) == Prefix(b, AnalysisInputLimit) ==> AnalysisRequest(a) == AnalysisRequest(b)
    ensures Prefix(a, SummaryInputLimit) == Prefix(b, SummaryInputLimit) ==> SummaryRequest(a) == SummaryRequest(b)
  {
  }

  /** One invocation raced against the deadline (`withTimeout`). */
  function AttemptOutcome(a: AttemptResult): (o: Outcome<Option<string>>)
    ensures RetryableFailure(o) <==> a.DeadlineExpired?
    ensures o.Threw? ==> !o.thrown.Undefined?
    ensures o.Returned? <==> a.Completed?
    ensures a.Completed? ==> o == Returned(a.content)
    ensures a.ClientFailed? ==> o == Threw(Raw(a.signal))
  {
    WithTimeout(
      match a
      case Completed(content) => SettledFirst(Returned(content))
      case ClientFailed(sig) => SettledFirst(Threw(Raw(sig)))
      case DeadlineExpired => DeadlineFirst)
  }

  /** `withRetry(() => withTimeout(create(...), timeout), maxRetries)`. */
  function CallWithRetry(s: State, attempts: nat -> AttemptResult): (run: RetryRun<Option<string>>)
    ensures EffectiveMaxRetries(s.config) < 1 ==> run.invocations == 0 && run.outcome == Threw(Undefined)
    ensures EffectiveMaxRetries(s.config) >= 1 ==>
      && 1 <= run.invocations <= EffectiveMaxRetries(s.config)
      && run.outcome == AttemptOutcome(attempts(run.invocations))
    ensures forall a :: 1 <= a < run.invocations ==> attempts(a).DeadlineExpired?
    ensures 1 <= run.invocations < EffectiveMaxRetries(s.config) ==> !attempts(run.invocations).DeadlineExpired?
    ensures run.outcome.Returned? ==> attempts(run.invocations) == Completed(run.outcome.value)
  {
    var op := Invocations(attempts);
    var run := WithRetry(op, EffectiveMaxRetries(s.config), DefaultInitialDelay);
    assert forall a :: 1 <= a < run.invocations ==> RetryableFailure(op(a));
    run
  }

  /** The operation `withRetry` repeats: invocation `a` is attempt `a`
      raced against the deadline. */
  function Invocations(attempts: nat -> AttemptResult): (op: nat -> Outcome<Option<string>>)
    ensures forall a :: op(a) == AttemptOutcome(attempts(a))
  {
    (a: nat) => AttemptOutcome(attempts(a))
  }

  /** The try/catch shared by the three operations, before the content is
      interpreted: on success the state is untouched; on failure the
      message is recorded and `handleApiError` throws the classified error.
      A thrown `undefined` has no message, so reading it throws a TypeError
      instead and nothing is recorded. */
  function Settle(s: State, req: Request, attempts: nat -> AttemptResult): (c: Call<Option<string>>)
    ensures c.request == req
    ensures c.invocations == CallWithRetry(s, attempts).invocations
    ensures c.outcome.Returned? ==> c.state == s && c.outcome == CallWithRetry(s, attempts).outcome
    ensures c.outcome.Returned? <==> CallWithRetry(s, attempts).outcome.Returned?
    ensures EffectiveMaxRetries(s.config) >= 1 ==>
      var o := CallWithRetry(s, attempts).outcome;
      o.Threw? ==>
        && !o.thrown.Undefined?
        && c.state == s.(lastError := Some(MessageOf(o.thrown)))
        && c.outcome == Threw(Classified(HandleApiError(SignalOf(o.thrown))))
    ensures EffectiveMaxRetries(s.config) < 1 ==>
      c == Call(req, s, Threw(Raw(FailureSignal(UndefinedMessageError, None, None, None))), 0)
  {
    var run := CallWithRetry(s, attempts);
    match run.outcome
    case Returned(content) => Call(req, s, Returned(content), run.invocations)
    case Threw(e) =>
      if e.Undefined? then
        Call(req, s, Threw(Raw(FailureSignal(UndefinedMessageError, None, None, None))), run.invocations)
      else
        Call(req, s.(lastError := Some(MessageOf(e))), Threw(Classified(HandleApiError(SignalOf(e)))), run.invocations)
  }

  /** An operation failed exactly as the shared try/catch did. */
  predicate SameFailure<T>(c: Call<T>, x: Call<Option<string>>) {
    && x.outcome.Threw?
    && c.outcome == Threw(x.outcome.thrown)
    && c.state == x.state
    && c.invocations == x.invocations
  }

  /** The completion text, or the fallback when it is missing or empty. */
  function ContentOr(content: Option<string>, fallback: string): (r: string)
    ensures fallback != "" ==> r != ""
    ensures HasContext(content) ==> r == content.value
    ensures !HasContext(content) ==> r == fallback
  {
    if content.Some? && content.value != "" then content.value else fallback
  }

  /** `generateResponse`: a non-empty reply on success. */
  function GenerateResponse(s: State, prompt: string, context: Option<string>, attempts: nat -> AttemptResult): (c: Call<string>)
    ensures c.request == ResponseRequest(prompt, context)
    ensures c.invocations == CallWithRetry(s, attempts).invocations
    ensures c.outcome.Returned? ==> c.outcome.value != "" && c.state == s
    ensures c.outcome.Returned? ==> var run := CallWithRetry(s, attempts);
      && run.outcome.Returned?
      && (HasContext(run.outcome.value) ==> c.outcome.value == run.outcome.value.value)
      && (!HasContext(run.outcome.value) ==> c.outcome.value == NoResponse)
    ensures c.outcome.Threw? ==> SameFailure(c, Settle(s, ResponseRequest(prompt, context), attempts))
  {
    var x := Settle(s, ResponseRequest(prompt, context), attempts);
    match x.outcome
    case Returned(content) => Call(x.request, x.state, Returned(ContentOr(content, NoResponse)), x.invocations)
    case Threw(e) => Call(x.request, x.state, Threw(e), x.invocations)
  }

  /** `analyzeNote`: the completion text (empty when missing) parsed. */
  function AnalyzeNote(s: State, noteContent: string, attempts: nat -> AttemptResult): (c: Call<NoteAnalysis>)
    ensures c.request == AnalysisRequest(noteContent)
    ensures c.invocations == CallWithRetry(s, attempts).invocations
    ensures c.outcome.Returned? ==> c.state == s
    ensures c.outcome.Returned? ==> var run := CallWithRetry(s, attempts);
      run.outcome.Returned? && c.outcome.value == ParseAnalysisResponse(run.outcome.value.GetOr(""))
    ensures c.outcome.Threw? ==> SameFailure(c, Settle(s, AnalysisRequest(noteContent), attempts))
  {
    var x := Settle(s, AnalysisRequest(noteContent), attempts);
    match x.outcome
    case Returned(content) => Call(x.request, x.state, Returned(ParseAnalysisResponse(content.GetOr(""))), x.invocations)
    case Threw(e) => Call(x.request, x.state, Threw(e), x.invocations)
  }

  /** `summarizeText`: a non-empty summary on success. */
  function SummarizeText(s: State, text: string, attempts: nat -> AttemptResult): (c: Call<string>)
    ensures c.request == SummaryRequest(text)
    ensures c.invocations == CallWithRetry(s, attempts).invocations
    ensures c.outcome.Returned? ==> c.outcome.value != "" && c.state == s
    ensures c.outcome.Returned? ==> var run := CallWithRetry(s, attempts);
      && run.outcome.Returned?
      && (HasContext(run.outcome.value) ==> c.outcome.value == run.outcome.value.value)
      && (!HasContext(run.outcome.value) ==> c.outcome.value == NoSummary)
    ensures c.outcome.Threw? ==> SameFailure(c, Settle(s, SummaryRequest(text), attempts))
  {
    var x := Settle(s, SummaryRequest(text), attempts);
    match x.outcome
    case Returned(content) => Call(x.request, x.state, Returned(ContentOr(content, NoSummary)), x.invocations)
    case Threw(e) => Call(x.request, x.state, Threw(e), x.invocations)
  }

  /** Only deadline expiries are retried: a client failure is not an
      `AIError`, so every invocation before the last one timed out, and
      the client is invoked at most the configured number of times. */
  lemma OnlyTimeoutsAreRetried(s: State, attempts: nat -> AttemptResult)
    ensures var run := CallWithRetry(s, attempts);
      && run.invocations <= (if EffectiveMaxRetries(s.config) < 0 then 0 else EffectiveMaxRetries(s.config))
      && forall a :: 1 <= a < run.invocations ==> attempts(a).DeadlineExpired?
  {
    var run := CallWithRetry(s, attempts);
    forall a | 1 <= a < run.invocations ensures attempts(a).DeadlineExpired? {
      assert RetryableFailure(Invocations(attempts)(a));
    }
  }

  /** `k` timeouts followed by a completion, with `k` below the retry count:
      the client is invoked `k + 1` times, the completion is what the call
      settles with, and nothing is recorded. */
  lemma TimeoutsThenCompletion(s: State, req: Request, attempts: nat -> AttemptResult, k: nat, content: Option<string>)
    requires k < EffectiveMaxRetries(s.config)
    requires forall a :: 1 <= a <= k ==> attempts(a).DeadlineExpired?
    requires attempts(k + 1) == Completed(content)
    ensures var c := Settle(s, req, attempts);
      && c.invocations == k + 1
      && c.outcome == Returned(content)
      && c.state == s
  {
  }

  /** A failure inside the client on the first invocation ends the call at
      once: its message is recorded and it is classified by status and
      code. */
  lemma ClientFailureIsNotRetried(s: State, req: Request, sig: FailureSignal, attempts: nat -> AttemptResult)
    requires EffectiveMaxRetries(s.config) >= 1
    requires attempts(1) == ClientFailed(sig)
    ensures var c := Settle(s, req, attempts);
      && c.invocations == 1
      && c.state.lastError == Some(sig.message)
      && c.outcome == Threw(Classified(HandleApiError(sig)))
  {
    var op := Invocations(attempts);
    assert op(1) == Threw(Raw(sig));
    RetryStopsOnPermanentFailure(op, 1, EffectiveMaxRetries(s.config), DefaultInitialDelay);
  }

  /** Every attempt timing out: the client is invoked the configured number
      of times, "Request timed out" is recorded, and what reaches the caller
      is the timeout `AIError` reclassified as an unexpected, non-retryable
      API error, since it has no status or code for `handleApiError`. */
  lemma TimeoutsExhaustRetries(s: State, req: Request, attempts: nat -> AttemptResult)
    requires EffectiveMaxRetries(s.config) >= 1
    requires forall a :: 1 <= a <= EffectiveMaxRetries(s.config) ==> attempts(a).DeadlineExpired?
    ensures var c := Settle(s, req, attempts);
      && c.invocations == EffectiveMaxRetries(s.config)
      && c.state.lastError == Some(TimeoutMessage)
      && c.outcome == Threw(Classified(AIError(Api, "Unexpected error: " + TimeoutMessage, false, None)))
      && !GetServiceStatus(c.state).available
  {
    var op := Invocations(attempts);
    forall a | 1 <= a <= EffectiveMaxRetries(s.config) ensures RetryableFailure(op(a)) {
      assert op(a) == AttemptOutcome(attempts(a));
    }
    RetryExhausted(op, EffectiveMaxRetries(s.config), DefaultInitialDelay);
  }

  /** A negative retry count is truthy, so it is passed to `withRetry`,
      which then throws `undefined` without invoking the client; the catch
      block's own message read throws, and no failure is recorded. */
  lemma NegativeRetryCountFailsUnrecorded(s: State, prompt: string, context: Option<string>, attempts: nat -> AttemptResult)
    requires s.config.maxRetries.Some? && s.config.maxRetries.value < 0
    ensures var c := GenerateResponse(s, prompt, context, attempts);
      && c.invocations == 0
      && c.state == s
      && c.outcome == Threw(Raw(FailureSignal(UndefinedMessageError, None, None, None)))
  {
  }
}

=== FILE: retry.dfy ===
/** `withRetry` and `withTimeout` (src/services/ai/utils.ts) as pure
    functions. Waiting is not performed but recorded: a run reports how many
    times the operation was invoked and the backoff waits in between. */
module Retry {
  import opened Base
  import opened Errors

  /** `withRetry`'s parameter defaults and its backoff base (the values of
      `DEFAULT_MAX_RETRIES`, `INITIAL_RETRY_DELAY` and
      `DEFAULT_BACKOFF_FACTOR` in src/services/ai/constants.ts, which
      `withRetry` writes out as literals). */
  const DefaultInitialDelay := 1000
  const BackoffBase := 2

  function Pow(b: int, e: nat): int {
    if e == 0 then 1 else b * Pow(b, e - 1)
  }

  /** The wait after failed attempt number `attempt` (counting from 1): the
      initial delay after the first failure, and each later wait the previous
      one multiplied by the backoff base. */
  function BackoffDelay(initialDelay: int, attempt: nat): (d: int)
    requires attempt >= 1
    ensures attempt == 1 ==> d == initialDelay
    ensures initialDelay >= 0 ==> d >= initialDelay
  {
    PowAtLeastOne(attempt - 1);
    initialDelay * Pow(BackoffBase, attempt - 1)
  }

  lemma {:induction false} PowAtLeastOne(e: nat)
    ensures Pow(BackoffBase, e) >= 1
  {
    if e > 0 {
      PowAtLeastOne(e - 1);
    }
  }

  /** Each wait after the first is the previous one times the backoff base. */
  lemma BackoffDoubles(initialDelay: int, attempt: nat)
    requires attempt >= 2
    ensures BackoffDelay(initialDelay, attempt) == BackoffBase * BackoffDelay(initialDelay, attempt - 1)
  {
  }

  /** An error `withRetry` may try again after: an `AIError` whose flag is set. */
  predicate IsRetryable(t: Thrown) {
    t.Classified? && t.error.retryable
  }

  /** An outcome after which `withRetry` goes on to another attempt, unless
      it was the last one. */
  predicate RetryableFailure<T>(o: Outcome<T>) {
    o.Threw? && IsRetryable(o.thrown)
  }

  /** One call of `withRetry`: the outcome it settles with, how many times it
      invoked the operation, and the waits it slept, in order. */
  datatype RetryRun<T> = RetryRun(outcome: Outcome<T>, invocations: nat, waits: seq<int>)

  /** The loop of `withRetry` from attempt `attempt` on. `op(a)` is the
      outcome of the `a`-th invocation of the operation. */
  function RetryFrom<T>(op: nat -> Outcome<T>, attempt: nat, maxRetries: nat, initialDelay: int): (run: RetryRun<T>)
    requires 1 <= attempt <= maxRetries
    ensures attempt <= run.invocations <= maxRetries
    ensures run.outcome == op(run.invocations)
    ensures forall a :: attempt <= a < run.invocations ==> RetryableFailure(op(a))
    ensures run.invocations < maxRetries ==> !RetryableFailure(op(run.invocations))
    ensures |run.waits| == run.invocations - attempt
    ensures forall i :: 0 <= i < |run.waits| ==> run.waits[i] == BackoffDelay(initialDelay, attempt + i)
    decreases maxRetries - attempt
  {
    match op(attempt)
    case Returned(_) => RetryRun(op(attempt), attempt, [])
    case Threw(e) =>
      if attempt == maxRetries || !IsRetryable(e) then
        RetryRun(op(attempt), attempt, [])
      else
        var rest := RetryFrom(op, attempt + 1, maxRetries, initialDelay);
        RetryRun(rest.outcome, rest.invocations, [BackoffDelay(initialDelay, attempt)] + rest.waits)
  }

  /** `withRetry(operation, maxRetries, initialDelay)`. With no attempt
      allowed the loop never runs and the uninitialised `lastError`, that is
      `undefined`, is thrown. Otherwise the run settles with the outcome of
      its last invocation, every earlier invocation having failed with a
      retryable error, and stops early only on a success or a
      non-retryable error. */
  function WithRetry<T>(op: nat -> Outcome<T>, maxRetries: int, initialDelay: int): (run: RetryRun<T>)
    ensures maxRetries < 1 ==> run == RetryRun(Threw(Undefined), 0, [])
    ensures maxRetries >= 1 ==> 1 <= run.invocations <= maxRetries && run.outcome == op(run.invocations)
    ensures forall a :: 1 <= a < run.invocations ==> RetryableFailure(op(a))
    ensures 1 <= run.invocations < maxRetries ==> !RetryableFailure(op(run.invocations))
    ensures |run.waits| == if run.invocations == 0 then 0 else run.invocations - 1
    ensures forall i :: 0 <= i < |run.waits| ==> run.waits[i] == BackoffDelay(initialDelay, i + 1)
  {
    if maxRetries < 1 then RetryRun(Threw(Undefined), 0, []) else RetryFrom(op, 1, maxRetries, initialDelay)
  }

  /** `k` retryable failures followed by a success, with `k` below the
      limit: the success is returned unchanged after exactly `k + 1`
      invocations and `k` waits. */
  lemma RetrySucceedsAfterFailures<T>(op: nat -> Outcome<T>, k: nat, maxRetries: int, initialDelay: int)
    requires k < maxRetries
    requires forall a :: 1 <= a <= k ==> RetryableFailure(op(a))
    requires op(k + 1).Returned?
    ensures WithRetry(op, maxRetries, initialDelay).outcome == op(k + 1)
    ensures WithRetry(op, maxRetries, initialDelay).invocations == k + 1
    ensures |WithRetry(op, maxRetries, initialDelay).waits| == k
  {
    var run := WithRetry(op, maxRetries, initialDelay);
    assert run.invocations <= k ==> RetryableFailure(op(run.invocations));
  }

  /** Every allowed attempt failing retryably: the last error is thrown after
      exactly `maxRetries` invocations, having waited
      `initialDelay * (2^(maxRetries-1) - 1)` in all. */
  lemma RetryExhausted<T>(op: nat -> Outcome<T>, maxRetries: int, initialDelay: int)
    requires maxRetries >= 1
    requires forall a :: 1 <= a <= maxRetries ==> RetryableFailure(op(a))
    ensures WithRetry(op, maxRetries, initialDelay).outcome == op(maxRetries)
    ensures WithRetry(op, maxRetries, initialDelay).invocations == maxRetries
    ensures Sum(WithRetry(op, maxRetries, initialDelay).waits) == initialDelay * (Pow(BackoffBase, maxRetries - 1) - 1)
  {
    var run := WithRetry(op, maxRetries, initialDelay);
    assert RetryableFailure(op(run.invocations));
    assert run.waits == Schedule(initialDelay, maxRetries - 1);
    ScheduleTotal(initialDelay, maxRetries - 1);
  }

  /** A failure that is not a retryable `AIError` ends the run at once, with
      no wait after it. */
  lemma RetryStopsOnPermanentFailure<T>(op: nat -> Outcome<T>, k: nat, maxRetries: int, initialDelay: int)
    requires 1 <= k <= maxRetries
    requires forall a :: 1 <= a < k ==> RetryableFailure(op(a))
    requires op(k).Threw? && !IsRetryable(op(k).thrown)
    ensures WithRetry(op, maxRetries, initialDelay).outcome == op(k)
    ensures WithRetry(op, maxRetries, initialDelay).invocations == k
    ensures |WithRetry(op, maxRetries, initialDelay).waits| == k - 1
  {
    var run := WithRetry(op, maxRetries, initialDelay);
    assert run.invocations < k ==> RetryableFailure(op(run.invocations));
  }

  function Sum(s: seq<int>): int {
    if |s| == 0 then 0 else Sum(s[..|s| - 1]) + s[|s| - 1]
  }

  /** The first `n` backoff waits. */
  function Schedule(initialDelay: int, n: nat): (s: seq<int>)
    ensures |s| == n
    ensures forall i :: 0 <= i < n ==> s[i] == BackoffDelay(initialDelay, i + 1)
  {
    seq(n, i requires 0 <= i < n => BackoffDelay(initialDelay, i + 1))
  }

  /** The first `n` waits add up to `initialDelay * (2^n - 1)`. */
  lemma {:induction false} ScheduleTotal(initialDelay: int, n: nat)
    ensures Sum(Schedule(initialDelay, n)) == initialDelay * (Pow(BackoffBase, n) - 1)
  {
    if n > 0 {
      ScheduleTotal(initialDelay, n - 1);
      assert Schedule(initialDelay, n)[..n - 1] == Schedule(initialDelay, n - 1);
      calc {
        Sum(Schedule(initialDelay, n));
        initialDelay * (Pow(BackoffBase, n - 1) - 1) + initialDelay * Pow(BackoffBase, n - 1);
        initialDelay * (BackoffBase * Pow(BackoffBase, n - 1) - 1);
      }
    }
  }

  /** Which of the two settles first in `Promise.race`: the operation (with
      its outcome) or the deadline timer. */
  datatype Race<T> = SettledFirst(outcome: Outcome<T>) | DeadlineFirst

  const TimeoutMessage := "Request timed out"

  /** `withTimeout`: the operation's own outcome when it settles first,
      otherwise a retryable timeout `AIError`. */
  function WithTimeout<T>(race: Race<T>): (o: Outcome<T>)
    ensures race.SettledFirst? ==> o == race.outcome
    ensures race.DeadlineFirst? ==> o == Threw(Classified(AIError(Timeout, TimeoutMessage, true, None)))
  {
    match race
    case SettledFirst(outcome) => outcome
    case DeadlineFirst => Threw(Classified(AIError(Timeout, TimeoutMessage, true)))
  }

  /** The deadline error is the one failure of its own making that
      `withRetry` will try again after. */
  lemma DeadlineIsRetried<T>()
    ensures RetryableFailure(WithTimeout<T>(DeadlineFirst))
    ensures WithTimeout<T>(DeadlineFirst).thrown.error.kind == Timeout
  {
  }
}

=== FILE: text.dfy ===
/** The JavaScript string operations the services rely on, over `string`
    (one `char` per character; text outside the Basic Multilingual Plane,
    which JavaScript stores as two UTF-16 code units, is not represented):
    `trim`, ASCII
    `toLowerCase`, `includes`, `startsWith`, `split` on one character,
    `substring(0, n)` and decimal rendering of a non-negative integer. */
module Text {

  /** The code points ECMAScript counts as white space or line terminators:
      what `String.prototype.trim` removes and what the regular-expression
      class `\s` matches. */
  predicate IsWhitespace(c: char) {
    || c == '\t' || c == '\n' || c == '\U{B}' || c == '\U{C}' || c == '\r'
    || c == ' ' || c == '\U{A0}' || c == '\U{1680}'
    || ('\U{2000}' <= c <= '\U{200A}')
    || c == '\U{2028}' || c == '\U{2029}' || c == '\U{202F}' || c == '\U{205F}'
    || c == '\U{3000}' || c == '\U{FEFF}'
  }

  predicate IsAsciiLetter(c: char) {
    'a' <= c <= 'z' || 'A' <= c <= 'Z'
  }

  predicate IsDigit(c: char) {
    '0' <= c <= '9'
  }

  /** Every character is white space (the empty string included): exactly
      the strings whose `trim()` is empty, hence falsy. */
  predicate IsBlank(s: string) {
    forall i :: 0 <= i < |s| ==> IsWhitespace(s[i])
  }

  /** No white space at either end. */
  predicate IsTrimmed(s: string) {
    s == [] || (!IsWhitespace(s[0]) && !IsWhitespace(s[|s| - 1]))
  }

  /** Every character of `s[lo..hi]` is white space. */
  predicate BlankBetween(s: string, lo: int, hi: int)
    requires 0 <= lo && hi <= |s|
  {
    forall i :: lo <= i < hi ==> IsWhitespace(s[i])
  }

  /** The end of the run of white space starting at `j`. */
  function SpaceRunFrom(s: string, j: nat): (k: nat)
    requires j <= |s|
    ensures j <= k <= |s| && BlankBetween(s, j, k)
    ensures k == |s| || !IsWhitespace(s[k])
    decreases |s| - j
  {
    if j < |s| && IsWhitespace(s[j]) then SpaceRunFrom(s, j + 1) else j
  }

  /** The start of the run of white space ending at `j`. */
  function SpaceRunBack(s: string, j: nat): (k: nat)
    requires j <= |s|
    ensures k <= j && BlankBetween(s, k, j)
    ensures k == 0 || !IsWhitespace(s[k - 1])
    decreases j
  {
    if j > 0 && IsWhitespace(s[j - 1]) then SpaceRunBack(s, j - 1) else j
  }

  /** `String.prototype.trim`: white space removed from both ends. */
  function Trim(s: string): (r: string)
    ensures IsTrimmed(r)
    ensures r == [] <==> IsBlank(s)
  {
    var a := SpaceRunFrom(s, 0);
    if a == |s| then []
    else
      var b := SpaceRunBack(s, |s|);
      assert a < b;
      s[a..b]
  }

  /** What `Trim` removes is white space only: the result is an infix of
      `s` with nothing but white space on either side of it. */
  lemma TrimIsInfix(s: string)
    ensures exists i :: OccursAt(s, Trim(s), i) && BlankBetween(s, 0, i) && BlankBetween(s, i + |Trim(s)|, |s|)
  {
    var a := SpaceRunFrom(s, 0);
    if a == |s| {
      assert OccursAt(s, Trim(s), 0);
    } else {
      assert OccursAt(s, Trim(s), a);
    }
  }

  /** Trimming keeps only characters of the input. */
  lemma TrimKeepsChars(s: string)
    ensures forall i :: 0 <= i < |Trim(s)| ==> Trim(s)[i] in s
  {
    var a := SpaceRunFrom(s, 0);
    forall i | 0 <= i < |Trim(s)| ensures Trim(s)[i] in s {
      assert Trim(s)[i] == s[a + i];
    }
  }

  /** A string without white space at its ends is its own trim. */
  lemma TrimOfTrimmed(s: string)
    requires IsTrimmed(s)
    ensures Trim(s) == s
  {
    if s != [] {
      assert SpaceRunFrom(s, 0) == 0;
      assert SpaceRunBack(s, |s|) == |s|;
    }
  }

  /** Trimming twice is trimming once. */
  lemma TrimIdempotent(s: string)
    ensures Trim(Trim(s)) == Trim(s)
  {
    TrimOfTrimmed(Trim(s));
  }

  /** ASCII `toLowerCase` on one character. */
  function LowerChar(c: char): (d: char)
    ensures 'A' <= c <= 'Z' ==> d as int == c as int + 32
    ensures !('A' <= c <= 'Z') ==> d == c
    ensures IsAsciiLetter(c) <==> 'a' <= d <= 'z'
  {
    if 'A' <= c <= 'Z' then (c as int + 32) as char else c
  }

  /** ASCII `toLowerCase`: letters A-Z mapped to a-z, everything else kept. */
  function Lower(s: string): (r: string)
    ensures |r| == |s|
    ensures forall i :: 0 <= i < |s| ==> r[i] == LowerChar(s[i])
    ensures forall i :: 0 <= i < |r| ==> !('A' <= r[i] <= 'Z')
  {
    seq(|s|, i requires 0 <= i < |s| => LowerChar(s[i]))
  }

  /** `prefix` is an initial segment of `s`: `String.prototype.startsWith`
      on strings, and the leading part of a list. */
  predicate StartsWith<T(==)>(s: seq<T>, prefix: seq<T>) {
    |prefix| <= |s| && s[..|prefix|] == prefix
  }

  /** `String.prototype.includes`: `t` occurs somewhere in `s`. */
  predicate Contains(s: string, t: string)
    decreases |s|
  {
    StartsWith(s, t) || (|s| > 0 && Contains(s[1..], t))
  }

  /** `t` occurs in `s` starting at index `i`. */
  predicate OccursAt(s: string, t: string, i: int) {
    0 <= i <= |s| - |t| && s[i..i + |t|] == t
  }

  /** `Contains` is the positional notion of occurrence. */
  lemma {:induction false} ContainsAt(s: string, t: string)
    ensures Contains(s, t) <==> exists i :: OccursAt(s, t, i)
    decreases |s|
  {
    if StartsWith(s, t) {
      assert OccursAt(s, t, 0);
    } else if |s| > 0 {
      ContainsAt(s[1..], t);
      if Contains(s[1..], t) {
        var i :| OccursAt(s[1..], t, i);
        assert s[i + 1..i + 1 + |t|] == s[1..][i..i + |t|];
        assert OccursAt(s, t, i + 1);
      }
      if i :| OccursAt(s, t, i) {
        assert i != 0;
        assert s[1..][i - 1..i - 1 + |t|] == s[i..i + |t|];
        assert OccursAt(s[1..], t, i - 1);
      }
    } else {
      assert forall i :: OccursAt(s, t, i) ==> i == 0 && StartsWith(s, t);
    }
  }

  /** `s.substring(0, n)`: the first `n` characters, or all of `s` when it is
      shorter. */
  function Prefix(s: string, n: nat): (r: string)
    ensures |r| == if |s| < n then |s| else n
    ensures StartsWith(s, r)
  {
    if n < |s| then s[..n] else s
  }

  /** The pieces of `s` between occurrences of `sep`, as
      `String.prototype.split` with a one-character separator produces them:
      always at least one piece, and joining them back gives `s`. */
  function Split(s: string, sep: char): (parts: seq<string>)
    ensures |parts| >= 1
    ensures forall i :: 0 <= i < |parts| ==> sep !in parts[i]
    ensures Join(parts, sep) == s
    decreases |s|
  {
    if |s| == 0 then [""]
    else
      var rest := Split(s[1..], sep);
      if s[0] == sep then
        var parts := [""] + rest;
        assert parts[1..] == rest;
        parts
      else
        var parts := [[s[0]] + rest[0]] + rest[1..];
        assert |rest| > 1 ==> parts[1..] == rest[1..] && Join(rest, sep) == rest[0] + [sep] + Join(rest[1..], sep);
        parts
  }

  /** `Array.prototype.join` with a one-character separator. */
  function Join(parts: seq<string>, sep: char): string
    requires |parts| >= 1
  {
    if |parts| == 1 then parts[0] else parts[0] + [sep] + Join(parts[1..], sep)
  }

  /** The other half of the round trip: splitting a join of separator-free
      pieces gives the pieces back. */
  lemma {:induction false} SplitJoin(parts: seq<string>, sep: char)
    requires |parts| >= 1
    requires forall i :: 0 <= i < |parts| ==> sep !in parts[i]
    ensures Split(Join(parts, sep), sep) == parts
    decreases |parts|, |parts[0]|
  {
    if |parts[0]| > 0 {
      var head := parts[0];
      var shorter := [head[1..]] + parts[1..];
      assert shorter[1..] == parts[1..];
      JoinConsChar(parts, sep);
      SplitJoin(shorter, sep);
      SplitConsChar(head[0], Join(shorter, sep), sep);
      assert [head[0]] + head[1..] == head;
      assert parts == [head] + parts[1..];
    } else if |parts| > 1 {
      SplitJoin(parts[1..], sep);
      assert Join(parts, sep) == [sep] + Join(parts[1..], sep);
      SplitConsSep(Join(parts[1..], sep), sep);
      assert parts == [""] + parts[1..];
    }
  }

  /** A join whose first piece is non-empty starts with that piece's first
      character, followed by the join with it removed. */
  lemma JoinConsChar(parts: seq<string>, sep: char)
    requires |parts| >= 1 && |parts[0]| > 0
    ensures Join(parts, sep) == [parts[0][0]] + Join([parts[0][1..]] + parts[1..], sep)
  {
    var shorter := [parts[0][1..]] + parts[1..];
    assert shorter[1..] == parts[1..];
  }

  /** Splitting after a leading ordinary character extends the first piece. */
  lemma SplitConsChar(c: char, s: string, sep: char)
    requires c != sep
    ensures Split([c] + s, sep) == [[c] + Split(s, sep)[0]] + Split(s, sep)[1..]
  {
    assert ([c] + s)[1..] == s;
  }

  /** Splitting after a leading separator adds an empty first piece. */
  lemma SplitConsSep(s: string, sep: char)
    ensures Split([sep] + s, sep) == [""] + Split(s, sep)
  {
    assert ([sep] + s)[1..] == s;
  }

  /** A character of a join is the separator or a character of one of the
      pieces, and conversely. */
  lemma {:induction false} JoinChars(parts: seq<string>, sep: char, c: char)
    requires |parts| >= 1
    ensures c in Join(parts, sep) <==> (c == sep && |parts| > 1) || exists i :: 0 <= i < |parts| && c in parts[i]
    decreases |parts|
  {
    if |parts| > 1 {
      JoinChars(parts[1..], sep, c);
      assert forall i :: 1 <= i < |parts| ==> parts[i] == parts[1..][i - 1];
      if i :| 1 <= i < |parts| && c in parts[i] {
        assert c in parts[1..][i - 1];
      }
    }
  }

  /** Splitting white space alone yields only blank pieces. */
  lemma {:induction false} SplitBlank(s: string, sep: char)
    requires IsBlank(s)
    ensures forall i :: 0 <= i < |Split(s, sep)| ==> IsBlank(Split(s, sep)[i])
    decreases |s|
  {
    if |s| > 0 {
      assert IsBlank(s[1..]) by {
        forall j | 0 <= j < |s| - 1 ensures IsWhitespace(s[1..][j]) { assert s[1..][j] == s[j + 1]; }
      }
      SplitBlank(s[1..], sep);
    }
  }

  function DigitChar(d: nat): (c: char)
    requires d < 10
    ensures IsDigit(c)
  {
    ('0' as int + d) as char
  }

  function DigitValue(c: char): nat
    requires IsDigit(c)
  {
    c as int - '0' as int
  }

  predicate AllDigits(s: string) {
    forall i :: 0 <= i < |s| ==> IsDigit(s[i])
  }

  /** A numeral as JavaScript writes a non-negative integer: at least one
      digit, and no leading zero unless it is "0" itself. */
  predicate IsNumeral(s: string) {
    |s| >= 1 && AllDigits(s) && (s[0] == '0' ==> |s| == 1)
  }

  /** The number a string of decimal digits denotes. */
  function DecimalValue(s: string): nat
    requires AllDigits(s)
  {
    if |s| == 0 then 0 else 10 * DecimalValue(s[..|s| - 1]) + DigitValue(s[|s| - 1])
  }

  /** Decimal rendering of a non-negative integer, as a template literal
      shows a JavaScript number: digits only, no leading zero. */
  function NatToString(n: nat): (r: string)
    ensures IsNumeral(r)
    ensures (r[0] == '0') <==> n == 0
    decreases n
  {
    if n < 10 then [DigitChar(n)] else NatToString(n / 10) + [DigitChar(n % 10)]
  }

  /** Reading back the rendering gives the number. */
  lemma {:induction false} DecimalRoundTrip(n: nat)
    ensures DecimalValue(NatToString(n)) == n
    decreases n
  {
    if n >= 10 {
      DecimalRoundTrip(n / 10);
      var r := NatToString(n);
      assert r[..|r| - 1] == NatToString(n / 10);
    }
  }
}

=== FILE: types.dfy ===
/** The shapes the AI services exchange with their callers
    (src/services/ai/types.ts) and the defaults they fall back on
    (src/services/ai/constants.ts). */
module AITypes {
  import opened Base

  datatype Sentiment = Positive | Negative | Neutral

  /** The structured result of analysing a note. */
  datatype NoteAnalysis = NoteAnalysis(
    summary: string,
    keyPoints: seq<string>,
    suggestedTags: seq<string>,
    sentiment: Sentiment)

  /** What `getServiceStatus` reports. The optional rate-limit block is never
      filled in by either provider and is left out. */
  datatype ServiceStatus = ServiceStatus(available: bool, lastError: Option<string>)

  /** `AIServiceConfig`. The provider is kept as free text because the
      factory has a branch for values outside the declared union. */
  datatype ServiceConfig = ServiceConfig(
    provider: string,
    apiKey: Option<string>,
    baseURL: Option<string>,
    timeout: Option<int>,
    maxRetries: Option<int>)

  datatype Role = System | User | Assistant

  /** One role-tagged entry of a chat-completion request. */
  datatype ChatMessage = ChatMessage(role: Role, content: string)

  const DefaultTimeout := 30000
  const DefaultMaxRetries := 3

  const GreetingResponse := "Hello! How can I assist you with your notes today?"
  const AnalysisResponse := "This note appears to be about productivity and organization. Key points include task management and prioritization."
  const SummaryResponse := "This text discusses the importance of effective note-taking strategies for knowledge management."
}
